=== FILE: README.md ===
# forest.py in Dafny

This project models `forest.py`, which does three things:

- it parses a dialect of Newick tree text meant to be binary (the parser also accepts one-child nodes) into a tree of `Node`s (`from_newick`);
- it colours the leaves of two such trees so that the first tree's leaves get distinct colours and each leaf of the second tree takes the colour of the last first-tree leaf with the same label (the colouring loop of `to_json`);
- it flattens each tree into a nested name/colour record ready to be written as JSON (`Node.flatten`).

A tree is an arena: a sequence of node records whose index is the node's key. `parent`, `left` and `right` are optional indices into that sequence. The root is index 0.

Names coined by the model spell "colour" (`Colour`, `DefaultColour`, `Colouring`). The node field `color` and the record field `color` keep the source's attribute name and JSON key.

The parser always hands out keys in creation order. So `WellFormed` can require:

- every node's key is its index;
- every child comes after its parent;
- every live child slot points back through the child's `parent`.

Every parse result is proved to satisfy `WellFormed`.

The files:

- `wrappers.dfy`: `Option` and `Result`.
- `text.dfy`: Python's `str.strip()` over its exact whitespace set, and `str(n)` for keys.
- `forest.dfy`: the `Node` operations `add_child`, `is_leaf`, `leaf_set` and `subtree_node_set`; a leftmost-first leaf enumeration; and the well-formedness, depth and reachability facts.
- `flatten.dfy`: `Node.flatten`.
- `newick.dfy`:
  - `from_newick` as a pure scan, with one function per token class (`(`, `,`, `)`, a label run);
  - the same loop as a method, `ParseNewick`, proved equal to it;
  - the scan invariant, which includes "`brackets` is the depth of the current node".
- `examples_newick.dfy`: worked inputs, namely `(x,y)` for any one-letter labels, `(A,B))`, `(A,B,C)`, `(x,y)(z)`, `A,B`, `(A`, `(A)`, `A` and `A;`.
- `colouring.dfy`:
  - the colouring loop over tree 1's leaves (`i / n`, written as the exact fraction `Ratio(i, n)`);
  - the label-to-colour table, in which the last write wins;
  - the lookup for tree 2's leaves, in which a missing label is an error.
- `export.dfy`: `to_json` without its file writes. It parses both trees, colours them and flattens both. Each exception the code raises on its own inputs (an `IndexError`, the failed `assert`, an `AttributeError` on `None`, a `KeyError`) is an error value; the interpreter limits listed under "## Left out" are not modelled.
- `examples_export.dfy`: worked inputs for `to_json`, namely `(x,y)` against `(y,x)`, `(x,y)` against `(x,z)`, and the order of the failures.

Apart from the interpreter limits under "## Left out", the model follows the code as written, including where the code departs from the "full binary forest" of the class docstring (forest.py:10):

- A parse that ends with unclosed brackets still returns the root (`(A` gives a tree).
- The parser does not enforce binary arity:
  - `(A)` gives a node with a single child;
  - a `(` on a node that already has two children overwrites its right child slot, and the old right child becomes unreachable.
  So `leaf_set`, `subtree_node_set` and `flatten` are modelled for complete trees only (`Full`). A reachable node with one child makes `to_json` fail (`IncompleteTree`).
- Nodes start with the colour `#555` (`DefaultColour`), and internal nodes keep it through the colouring step.

## Model

| member | source | states |
|---|---|---|
| `Text.Strip` | forest.py:97 | the result is the input minus its leading and trailing Python whitespace: it is a contiguous slice starting after the leading spaces, everything after it is a space, it is empty exactly when the input is all spaces, otherwise it starts and ends with a non-space |
| `Text.StripIdempotent` | forest.py:97 | stripping a label twice gives the same label as stripping it once |
| `Text.NatToString` | forest.py:17 | `str(key)` is a non-empty string of decimal digits with no leading zero; the only label starting with `0` is `"0"` itself, for key 0 |
| `Text.NatToStringRoundTrip` | forest.py:17 | reading `str(key)` back as a decimal number gives the key |
| `Text.NatToStringInjective` | forest.py:17 | different keys get different default labels |
| `Forest.NewNode` | forest.py:12-18 | `Node(key)` has the given key, no parent and no children, the colour `#555`, and a label of decimal digits that reads back as the key, is non-empty, and starts with `0` only when it is exactly `"0"` for key 0 |
| `Forest.IsLeafIffNoChildren` | forest.py:33-34 | in a well-formed arena, `is_leaf` holds exactly when no node names this one as its parent, that is, when it was never given a child |
| `Forest.AddChild` | forest.py:23-28 | `add_child` fills the left slot if it is empty and the right slot otherwise, makes the parent the child's parent, and changes no other node |
| `Forest.AttachFreshKeepsWellFormed` | forest.py:70-74 | attaching a fresh node with the next key under any existing node keeps the arena well formed: keys equal indices, each child's key exceeds its parent's, child slots and parent links agree |
| `Forest.DepthZeroIsRoot` | forest.py:85-90 | a node has depth 0 exactly when it is the root, so a `)` goes below depth 0 exactly when the current node is the root |
| `Forest.LeafSet` | forest.py:36-40 | `leaf_set` is non-empty and holds only leaves whose keys are at or after the subtree's root |
| `Forest.SubtreeNodeSet` | forest.py:42-48 | `subtree_node_set` holds the node itself and only nodes of keys at or after it |
| `Forest.Leaves` | forest.py:36-40 | a leftmost-first leaf enumeration: non-empty, and every entry is a leaf whose key is at or after the subtree's root |
| `Forest.LeafSetIsChildlessNodes` | forest.py:36-40 | `leaf_set` is exactly the set of childless nodes of the subtree |
| `Forest.LeafSetInSubtree` | forest.py:36-48 | every node of `leaf_set` is in `subtree_node_set` |
| `Forest.SubtreeNodeSetIsReachable` | forest.py:42-48 | a node is in `subtree_node_set` exactly when it is reached from the subtree's root through live child slots (an orphaned node is in no subtree) |
| `Forest.SubtreesDisjoint` | forest.py:46 | the node sets of the left and the right subtree have no node in common |
| `Forest.LeavesEnumerateLeafSet` | forest.py:36-40 | the enumeration lists exactly the members of `leaf_set` |
| `Forest.LeavesDistinct` | forest.py:36-40 | the enumeration lists no leaf twice |
| `Forest.RecolourKeepsShape` | forest.py:109-116 | changing only colours keeps the tree well formed, complete exactly when it was, and with the same leaves in the same order |
| `Flattening.Flatten` | forest.py:50-54 | `flatten` of a complete subtree is a full binary record: one leaf record, with one name and one colour, per leaf, and `2n - 1` records for `n` leaves |
| `Flattening.FlattenShape` | forest.py:50-54 | a record is a leaf record (no children) exactly for a leaf, and otherwise has exactly two children; it carries the node's colour; it is named by the label for a leaf and by `str(key)` for an internal node |
| `Flattening.FlattenLeafNames` | forest.py:50-54 | the leaf records, left to right, carry the labels of the subtree's leaves in leftmost-first order |
| `Flattening.FlattenLeafColours` | forest.py:50-54 | the leaf records, left to right, carry the colours of the subtree's leaves in leftmost-first order |
| `Flattening.FlattenSize` | forest.py:42-54 | flattening yields one record per node of `subtree_node_set` |
| `Flattening.FlattenInnerColours` | forest.py:53 | when every internal node of the subtree has colour `c`, so does every internal record |
| `Newick.Start` | forest.py:61-65 | before the first token there is only the root, with key 0, label `prefix + "0"` and no children; the cursor and the depth are 0 |
| `Newick.AttachKeepsInvariant` | forest.py:70-83 | attaching a fresh node under any node keeps the scan invariant and puts the new node one level below it |
| `Newick.Open` | forest.py:69-76 | `(` creates a leaf with the next key and the default label, puts it in the current node's left slot if that is empty and otherwise in its right slot (overwriting it), changes nothing else in the current node, makes the new node current, and adds one to the depth and the cursor; no other node changes |
| `Newick.Separate` | forest.py:77-84 | `,` fails with `OrphanSibling` exactly when the current node is the root, and with `TooManyChildren` exactly when its parent already has a right child, and with no other error; otherwise it succeeds and puts a new leaf with the next key in the parent's right slot and changes nothing else in the parent, makes the new leaf current, and leaves the depth unchanged; no other node changes |
| `Newick.Close` | forest.py:85-90 | `)` fails with `MalformedBracketing` exactly when the current node is the root; otherwise the parent becomes current, the depth drops by one, and no node changes |
| `Newick.RunEnd` | forest.py:94-96 | a label run stops at the first `,` or `)` or at the end of the text, and contains neither |
| `Newick.RelabelKeepsInvariant` | forest.py:97-98 | setting the current node's label to a stripped piece of the text keeps the scan invariant |
| `Newick.LabelRun` | forest.py:91-98 | a label run consumes at least one character up to the next `,` or `)`, overwrites only the current node's label with the stripped run, and changes neither the key, the depth nor the current node |
| `Newick.Step` | forest.py:68-98 | one token keeps the scan invariant and advances the cursor; it can fail only on a `)` at the root (`MalformedBracketing`) or on a `,` (`TooManyChildren` or `OrphanSibling`) |
| `Newick.Scan` | forest.py:67-98 | the scan either fails or reads the whole text and ends in a state satisfying the invariant, with at least the nodes it started with; it never fails with `EmptyInput`, fails with `MalformedBracketing` only when a `)` lies ahead, and fails otherwise only when a `,` lies ahead |
| `Newick.Body` | forest.py:59-60 | exactly one trailing `;` is dropped; other text is kept as is |
| `Newick.FromNewick` | forest.py:58-100 | it fails with `EmptyInput` exactly on the empty string; a result is a well-formed arena rooted at key 0 without a parent, every node has the colour `#555`, and every label is `prefix` followed by the key or a stripped piece of the text; `MalformedBracketing` needs a `)` in the text, and `TooManyChildren` or `OrphanSibling` needs a `,` |
| `Newick.NoSeparatorsParses` | forest.py:58-100 | a non-empty text with no `,` and no `)` always yields a tree, however many `(` stay unclosed |
| `Newick.ParseNewick` | forest.py:58-100 | the `while` loop, run over a mutable scanner state, computes the same result as the scan |
| `NewickExamples.PairTree` | forest.py:58-100 | `(x,y)` for any one-letter labels `x` and `y` (not whitespace, a bracket or a comma) gives a root with leaf `x` (key 1) on the left and leaf `y` (key 2) on the right |
| `NewickExamples.BalancedPair` | forest.py:58-100 | `(A,B)` gives a root with leaf `A` (key 1) on the left and leaf `B` (key 2) on the right |
| `NewickExamples.OverwrittenSibling` | forest.py:23-28 | `(x,y)(z)` yields a complete tree with leaves `x` and `z`: the second `(` overwrites the root's right slot, and the node labelled `y` keeps the root as its parent but is in no subtree |
| `NewickExamples.OverwrittenB` | forest.py:69-76 | `(A,B)(C)` yields leaves `A` and `C`, and `B` is in no subtree |
| `NewickExamples.ExtraClose` | forest.py:85-90 | `(A,B))` fails as a whole with `MalformedBracketing` |
| `NewickExamples.ThirdChild` | forest.py:77-84 | `(A,B,C)` fails with `TooManyChildren` |
| `NewickExamples.TopLevelSibling` | forest.py:77-84 | `A,B` fails with `OrphanSibling` |
| `NewickExamples.UnclosedBracket` | forest.py:67-100 | `(A` still returns a tree |
| `NewickExamples.SingleChild` | forest.py:69-76 | `(A)` returns a tree whose root has a single child, so it is not complete |
| `NewickExamples.BareLabel` | forest.py:91-98 | a text that does not start with `(` and holds no `,` or `)` (a `(` later on is kept) returns a single leaf labelled with the stripped text |
| `NewickExamples.TerminatedLabel` | forest.py:59-60 | `A;` returns the single node `A` |
| `Colouring.RankInUnitInterval` | forest.py:112 | every colour `i / n` with `i < n` lies in [0, 1) |
| `Colouring.RanksDistinct` | forest.py:112 | different ranks get different colours |
| `Colouring.RankSequence` | forest.py:110-112 | a sequence holding the rank `i / n` at each position `i` holds values in [0, 1), no two of them equal |
| `Colouring.Paint` | forest.py:111-113 | after `m` rounds only colours have changed, a leaf not yet visited keeps its colour, and (for an enumeration without repeats) leaf `j` has colour `j / n` |
| `Colouring.ColourTable` | forest.py:111-114 | after `m` rounds the table's keys are exactly the labels of the visited leaves, and each label maps to the colour of its last occurrence |
| `Colouring.TableStep` | forest.py:114 | one write keeps "each label maps to the colour of its last occurrence so far" |
| `Colouring.Propagate` | forest.py:115-116 | the lookups succeed exactly when every label from the current position on is in the table; otherwise the error names the first missing label; on success only colours change, each visited leaf takes its label's colour from the table, and other nodes keep theirs |
| `Colouring.TableKeysAreLeafLabels` | forest.py:109-114 | the finished table knows exactly the leaf labels of tree 1 |
| `Colouring.MatchedIffLabelsShared` | forest.py:115-116 | colouring tree 2 succeeds exactly when each of its leaf labels is a leaf label of tree 1; otherwise the error names one that is not |
| `Colouring.TreeOneColours` | forest.py:109-113 | in tree 1 only colours change, leaf `i` of `n` has colour `i / n`, and every other node keeps its colour |
| `Colouring.TreeTwoColours` | forest.py:115-116 | in tree 2 only colours change, each leaf gets `i / n`, where `i` is the last tree-1 leaf with its label, and every other node keeps its colour |
| `Colouring.AlignColours` | forest.py:109-116 | the colouring step succeeds exactly when every leaf label of tree 2 is a leaf label of tree 1; the error names a missing one; on success only colours change in either tree |
| `Colouring.AlignColoursKeepsInner` | forest.py:109-116 | the colouring step keeps both trees' sizes and the colour of every node that is not a leaf |
| `Colouring.AlignColoursRanks` | forest.py:110-113 | tree 1's leaf `i` of `n` gets the colour `i / n` |
| `Colouring.AlignColoursMatches` | forest.py:114-116 | each tree-2 leaf gets the colour `i / n` of the last tree-1 leaf with the same label |
| `Export.Render` | forest.py:109-121 | colouring and flattening two complete trees succeeds exactly when every leaf label of tree 2 is one of tree 1, and otherwise reports a tree-2 leaf label that tree 1 lacks |
| `Export.ToJson` | forest.py:104-121 | errors arrive in the order the program meets them: a raising parse of tree 1, then of tree 2, then a missing or incomplete tree 1, then a missing or incomplete tree 2, and a missing colour only once both trees are complete; with two complete trees the result is the colouring and flattening of both |
| `Export.ToJsonSucceeds` | forest.py:104-121 | `to_json` succeeds exactly when both texts parse to complete trees and every leaf label of tree 2 is a leaf label of tree 1; internal records then have the colour `#555` |
| `Export.RenderLeafNames` | forest.py:118-121 | the leaf records of both outputs are the trees' leaf labels in leftmost-first order, with one colour per name |
| `Export.RenderRanks` | forest.py:110-113 | in the first output, leaf record `i` of `n` has colour `i / n` |
| `Export.RenderColoursDistinct` | forest.py:109-113 | the leaf colours of the first output lie in [0, 1) and are pairwise different numbers |
| `Export.RenderMatches` | forest.py:114-116 | each leaf record of the second output has the colour of the last leaf record of the first output that has the same name |
| `Export.RenderInnerColours` | forest.py:109-121 | internal records keep the colour every node was created with |
| `ExportExamples.CrossPair` | forest.py:104-121 | for two different one-letter labels, `(x,y)` against `(y,x)` succeeds; the first output lists `x`, `y` with colours 0/2, 1/2, and the second lists `y`, `x` with colours 1/2, 0/2 |
| `ExportExamples.CrossTreeColours` | forest.py:104-121 | `(A,B)` against `(B,A)` gives the colours 0/2, 1/2 to `A`, `B` in both outputs |
| `ExportExamples.UnmatchedPair` | forest.py:115-116 | `(x,y)` against `(x,z)`, with `z` different from `x` and `y`, fails with a missing colour for the label `z` |
| `ExportExamples.UnmatchedLabel` | forest.py:115-116 | `(A,B)` against `(A,C)` fails with a missing colour for `C` |
| `ExportExamples.EmptyFirstTree` | forest.py:105 | an empty first text raises before the second is looked at |
| `ExportExamples.RaiseBeforeNoTree` | forest.py:105-106 | an empty second text is reported even when the first text gives no tree |
| `ExportExamples.ExtraCloseFirstTree` | forest.py:105-109 | `(A,B))` as the first text gives no tree, which is reported once the second text has parsed |
| `ExportExamples.SingleChildFirstTree` | forest.py:105-109 | `(A)` as the first text gives an incomplete tree |

## Left out

- File reading and writing, `json.dump`, and the `__main__` driver (forest.py:118-130). They are I/O. `ToJson` returns the two records that would be written.
- The `str()` conversion of colours and the float value of `i / len(leaves)` (forest.py:52-53, 112). Colours are exact fractions `Ratio(i, n)`, and `#555` is kept as the string it is.
- The iteration order of Python sets in `leaf_set` and `list(...)` (forest.py:40, 109, 115). Tree 1 is enumerated leftmost first. The tree-2 guarantees (`Colouring.AlignColoursMatches`, `Colouring.MatchedIffLabelsShared`) are stated for every member of `leaf_set`, whatever the order.
- `__repr__` and `is_root` (forest.py:20-21, 30-31). Nothing in the core uses them.
- Python's recursion limit. `leaf_set`, `subtree_node_set` and `flatten` recurse once per level (forest.py:40, 46, 54). A tree nested about a thousand levels deep makes them raise `RecursionError`, while `ToJson` returns the records.
- Running under `python -O`, which strips the `assert` at forest.py:80. Then a third child overwrites the parent's right slot instead of failing. The model always keeps the assert and reports `TooManyChildren`.
- The exact exception types and messages. Each is a constructor of `ParseError` or `ExportError`.
- Behaviour on a tree with a one-child node inside `leaf_set`, `subtree_node_set` and `flatten` (forest.py:40, 46, 54). The Python code crashes there. The model requires `Full`, and `ToJson` reports `IncompleteTree`.
- Forest.LeafSet: its own contract gives only non-emptiness and that members are leaves with keys at or after the subtree's root. The exact characterisation is `Forest.LeafSetIsChildlessNodes`.
- Forest.SubtreeNodeSet: its own contract gives only that the node is a member and that members have keys at or after it. The exact characterisation is `Forest.SubtreeNodeSetIsReachable`.
- Newick.Step: its own contract gives only the invariant, progress and which tokens can fail. What each token does is stated by `Newick.Open`, `Newick.Separate`, `Newick.Close` and `Newick.LabelRun`.
- Newick.Scan: its own contract gives only the invariant, the end of the text, and which failure needs which token. The per-token behaviour is in the token steps, and whole inputs are in `NewickExamples`.
- Colouring.Paint: the rank colours are promised only when the enumeration lists no node twice. `Forest.LeavesDistinct` shows that the leaf enumeration does not.

=== FILE: colouring.dfy ===
/** The leaf-colouring step of `to_json`: the leaves of tree 1 are ranked
    and coloured `i / n`, a table maps each label to the colour last written
    for it, and every leaf of tree 2 takes its colour from that table. */
module Colouring {
  import opened Wrappers
  import opened Forest

  /** The exact number a rank colour stands for. */
  function Value(c: Colour): real
    requires c.Ratio? && c.den > 0
  {
    c.num as real / c.den as real
  }

  /** Every rank colour `i / n` with `i < n` lies in [0, 1). */
  lemma RankInUnitInterval(i: nat, n: nat)
    requires i < n
    ensures 0.0 <= Value(Ratio(i, n)) < 1.0
  {
    assert (i as real) < (n as real);
    assert Value(Ratio(i, n)) * (n as real) == i as real;
  }

  /** Different ranks give different colours. */
  lemma RanksDistinct(i: nat, j: nat, n: nat)
    requires i < n && j < n && i != j
    ensures Value(Ratio(i, n)) != Value(Ratio(j, n))
  {
    assert Value(Ratio(i, n)) * (n as real) == i as real;
    assert Value(Ratio(j, n)) * (n as real) == j as real;
  }

  /** Every colour is a rank in [0, 1), and no two stand for the same number. */
  predicate DistinctInUnitInterval(c: seq<Colour>) {
    && (forall i :: 0 <= i < |c| ==> c[i].Ratio? && c[i].den > 0 && 0.0 <= Value(c[i]) < 1.0)
    && (forall i, j :: 0 <= i < j < |c| ==> Value(c[i]) != Value(c[j]))
  }

  /** A sequence of rank colours `i / n`, one per position, holds pairwise
      different values in [0, 1). */
  lemma RankSequence(c: seq<Colour>)
    requires forall i :: 0 <= i < |c| ==> c[i] == Ratio(i, |c|)
    ensures DistinctInUnitInterval(c)
  {
    forall i | 0 <= i < |c|
      ensures c[i].Ratio? && c[i].den > 0 && 0.0 <= Value(c[i]) < 1.0
    {
      RankInUnitInterval(i, |c|);
    }
    forall i, j | 0 <= i < j < |c|
      ensures Value(c[i]) != Value(c[j])
    {
      RanksDistinct(i, j, |c|);
    }
  }

  function SetColour(a: Arena, k: nat, c: Colour): Arena
    requires k < |a|
  {
    a[k := a[k].(color := c)]
  }

  predicate InArena(a: Arena, order: seq<nat>) {
    forall j :: 0 <= j < |order| ==> order[j] < |a|
  }

  /** Position `j` is the last of the first `m` positions whose leaf has that label. */
  predicate LastWithLabel(a: Arena, order: seq<nat>, m: nat, j: nat)
    requires m <= |order| && InArena(a, order) && j < m
  {
    forall j' :: j < j' < m ==> a[order[j']].lbl != a[order[j]].lbl
  }

  /** The colours written by the first `m` rounds of the loop over
      `enumerate(leaves)`: leaf `i` gets `i / n`. */
  function Paint(a: Arena, order: seq<nat>, m: nat, n: nat): (r: Arena)
    requires m <= |order| && InArena(a, order)
    ensures OnlyColoursDiffer(a, r)
    ensures forall k :: 0 <= k < |a| && k !in order[..m] ==> r[k].color == a[k].color
    ensures Distinct(order) ==> forall j :: 0 <= j < m ==> r[order[j]].color == Ratio(j, n)
    decreases m
  {
    if m == 0 then a
    else
      var prev := Paint(a, order, m - 1, n);
      assert order[..m] == order[..m - 1] + [order[m - 1]];
      assert Distinct(order) ==> forall j :: 0 <= j < m - 1 ==> order[j] != order[m - 1];
      SetColour(prev, order[m - 1], Ratio(m - 1, n))
  }

  /** The table `get_color` after the first `m` rounds: each label of those
      leaves maps to the colour of its last occurrence. */
  function ColourTable(a: Arena, order: seq<nat>, m: nat, n: nat): (r: map<string, Colour>)
    requires m <= |order| && InArena(a, order)
    ensures r.Keys == set j | 0 <= j < m :: a[order[j]].lbl
    ensures forall j :: 0 <= j < m && LastWithLabel(a, order, m, j) ==> r[a[order[j]].lbl] == Ratio(j, n)
    decreases m
  {
    if m == 0 then map[]
    else
      var prev := ColourTable(a, order, m - 1, n);
      TableStep(a, order, m, n, prev);
      prev[a[order[m - 1]].lbl := Ratio(m - 1, n)]
  }

  /** One round of the table loop: the new write wins for its label, every
      other label keeps the colour of its last earlier occurrence. */
  lemma TableStep(a: Arena, order: seq<nat>, m: nat, n: nat, prev: map<string, Colour>)
    requires 0 < m <= |order| && InArena(a, order)
    requires prev.Keys == set j | 0 <= j < m - 1 :: a[order[j]].lbl
    requires forall j :: 0 <= j < m - 1 && LastWithLabel(a, order, m - 1, j) ==>
               prev[a[order[j]].lbl] == Ratio(j, n)
    ensures var r := prev[a[order[m - 1]].lbl := Ratio(m - 1, n)];
            && r.Keys == (set j | 0 <= j < m :: a[order[j]].lbl)
            && forall j :: 0 <= j < m && LastWithLabel(a, order, m, j) ==> r[a[order[j]].lbl] == Ratio(j, n)
  {
    var l := a[order[m - 1]].lbl;
    var r := prev[l := Ratio(m - 1, n)];
    TableStepKeys(a, order, m, prev.Keys);
    assert r.Keys == prev.Keys + {l};
    forall j | 0 <= j < m && LastWithLabel(a, order, m, j)
      ensures r[a[order[j]].lbl] == Ratio(j, n)
    {
      TableStepValue(a, order, m, n, prev, j);
    }
  }

  /** The value the table holds after one round for the label of leaf `j`,
      when `j` is the last leaf with that label so far. */
  lemma TableStepValue(a: Arena, order: seq<nat>, m: nat, n: nat, prev: map<string, Colour>, j: nat)
    requires 0 < m <= |order| && InArena(a, order) && j < m
    requires prev.Keys == set j | 0 <= j < m - 1 :: a[order[j]].lbl
    requires forall j :: 0 <= j < m - 1 && LastWithLabel(a, order, m - 1, j) ==>
               prev[a[order[j]].lbl] == Ratio(j, n)
    requires LastWithLabel(a, order, m, j)
    ensures a[order[j]].lbl in prev[a[order[m - 1]].lbl := Ratio(m - 1, n)]
    ensures prev[a[order[m - 1]].lbl := Ratio(m - 1, n)][a[order[j]].lbl] == Ratio(j, n)
  {
    if j < m - 1 {
      assert a[order[m - 1]].lbl != a[order[j]].lbl;
      assert LastWithLabel(a, order, m - 1, j);
      assert a[order[j]].lbl in prev;
    }
  }

  /** The labels of the first `m` leaves are those of the first `m - 1`
      and that of leaf `m - 1`. */
  lemma TableStepKeys(a: Arena, order: seq<nat>, m: nat, before: set<string>)
    requires 0 < m <= |order| && InArena(a, order)
    requires before == set j | 0 <= j < m - 1 :: a[order[j]].lbl
    ensures before + {a[order[m - 1]].lbl} == set j | 0 <= j < m :: a[order[j]].lbl
  {
    var l := a[order[m - 1]].lbl;
    var now := set j | 0 <= j < m :: a[order[j]].lbl;
    forall x | x in now
      ensures x in before + {l}
    {
      var j :| 0 <= j < m && x == a[order[j]].lbl;
      if j < m - 1 {
        assert x in before;
      }
    }
  }

  datatype AlignError = UnmatchedLeafLabel(lbl: string)

  /** The second loop over `root2.leaf_set()`, from position `i` of `order` on:
      each leaf takes the colour its label has in the table `get_color`; a
      label missing from the table is a `KeyError`. */
  function Propagate(a: Arena, order: seq<nat>, table: map<string, Colour>, i: nat)
    : (r: Result<Arena, AlignError>)
    requires i <= |order| && InArena(a, order)
    ensures r.Success? <==> forall j :: i <= j < |order| ==> a[order[j]].lbl in table
    ensures r.Failure? ==>
              exists j :: && i <= j < |order|
                          && r.error == UnmatchedLeafLabel(a[order[j]].lbl)
                          && a[order[j]].lbl !in table
                          && forall j' :: i <= j' < j ==> a[order[j']].lbl in table
    ensures r.Success? ==> OnlyColoursDiffer(a, r.value)
    ensures r.Success? ==> forall j :: i <= j < |order| ==> r.value[order[j]].color == table[a[order[j]].lbl]
    ensures r.Success? ==> forall k :: 0 <= k < |a| && k !in order[i..] ==> r.value[k].color == a[k].color
    decreases |order| - i
  {
    if i == |order| then Success(a)
    else
      var leaf := order[i];
      var l := a[leaf].lbl;
      if l !in table then Failure(UnmatchedLeafLabel(l))
      else
        var a' := SetColour(a, leaf, table[l]);
        assert forall j :: 0 <= j < |order| ==> a'[order[j]].lbl == a[order[j]].lbl;
        assert order[i..] == [leaf] + order[i + 1..];
        Propagate(a', order, table, i + 1)
  }

  /** The labels of the leaves of tree `a`. */
  function LeafLabels(a: Arena): set<string>
    requires WellFormed(a) && Full(a, 0)
  {
    set y | y in LeafSet(a, 0) :: a[y].lbl
  }

  /** The table built from an enumeration of all leaves knows exactly the leaf labels. */
  lemma TableKeysAreLeafLabels(a: Arena)
    requires WellFormed(a) && Full(a, 0)
    ensures var order := Leaves(a, 0);
            (set j | 0 <= j < |order| :: a[order[j]].lbl) == LeafLabels(a)
  {
    var order := Leaves(a, 0);
    LeavesEnumerateLeafSet(a, 0);
    var s := set j | 0 <= j < |order| :: a[order[j]].lbl;
    forall l | l in LeafLabels(a)
      ensures l in s
    {
      var y :| y in LeafSet(a, 0) && a[y].lbl == l;
      assert y in order;
      var j :| 0 <= j < |order| && order[j] == y;
    }
  }

  /** The colouring of `to_json`, over the leftmost-first leaf enumerations.
      Tree 1's leaf `i` of `n` gets `i / n`; each leaf of tree 2 gets the
      colour of the last leaf of tree 1 with its label; no other node and no
      other field changes; a tree-2 label that tree 1 lacks is an error. */
  function AlignColours(a1: Arena, a2: Arena): (r: Result<(Arena, Arena), AlignError>)
    requires WellFormed(a1) && Full(a1, 0) && WellFormed(a2) && Full(a2, 0)
    ensures r.Success? <==> forall x :: x in LeafSet(a2, 0) ==> a2[x].lbl in LeafLabels(a1)
    ensures r.Failure? ==>
              exists x :: && x in LeafSet(a2, 0)
                          && r.error == UnmatchedLeafLabel(a2[x].lbl)
                          && a2[x].lbl !in LeafLabels(a1)
    ensures r.Success? ==> OnlyColoursDiffer(a1, r.value.0) && OnlyColoursDiffer(a2, r.value.1)
  {
    var order1 := Leaves(a1, 0);
    var n := |order1|;
    var b1 := Paint(a1, order1, n, n);
    var table := ColourTable(a1, order1, n, n);
    MatchedIffLabelsShared(a1, a2);
    match Propagate(a2, Leaves(a2, 0), table, 0)
    case Failure(e) => Failure(e)
    case Success(b2) =>
      TreeOneColours(a1, b1);
      TreeTwoColours(a1, a2, table, b2);
      Success((b1, b2))
  }

  /** On success, the two trees `AlignColours` returns are the results of
      the two loops. */
  lemma AlignColoursParts(a1: Arena, a2: Arena)
    requires WellFormed(a1) && Full(a1, 0) && WellFormed(a2) && Full(a2, 0)
    requires AlignColours(a1, a2).Success?
    ensures var order1 := Leaves(a1, 0);
            AlignColours(a1, a2).value.0 == Paint(a1, order1, |order1|, |order1|)
    ensures var order1 := Leaves(a1, 0);
            var p := Propagate(a2, Leaves(a2, 0), ColourTable(a1, order1, |order1|, |order1|), 0);
            p.Success? && AlignColours(a1, a2).value.1 == p.value
  {
  }

  /** `AlignColours` leaves the size of both trees and the colour of every
      internal node alone. */
  lemma AlignColoursKeepsInner(a1: Arena, a2: Arena)
    requires WellFormed(a1) && Full(a1, 0) && WellFormed(a2) && Full(a2, 0)
    requires AlignColours(a1, a2).Success?
    ensures var r := AlignColours(a1, a2).value;
            && |r.0| == |a1| && |r.1| == |a2|
            && (forall k :: 0 <= k < |a1| && k !in LeafSet(a1, 0) ==> r.0[k].color == a1[k].color)
            && (forall k :: 0 <= k < |a2| && k !in LeafSet(a2, 0) ==> r.1[k].color == a2[k].color)
  {
    var order1 := Leaves(a1, 0);
    var n := |order1|;
    var b1 := Paint(a1, order1, n, n);
    var table := ColourTable(a1, order1, n, n);
    AlignColoursParts(a1, a2);
    var p := Propagate(a2, Leaves(a2, 0), table, 0);
    TreeOneColours(a1, b1);
    TreeTwoColours(a1, a2, table, p.value);
  }

  /** Tree 1's leaf `i` of `n`, leftmost first, gets the colour `i / n`. */
  lemma AlignColoursRanks(a1: Arena, a2: Arena)
    requires WellFormed(a1) && Full(a1, 0) && WellFormed(a2) && Full(a2, 0)
    requires AlignColours(a1, a2).Success?
    ensures var r := AlignColours(a1, a2).value;
            var order1 := Leaves(a1, 0);
            forall i :: 0 <= i < |order1| ==> r.0[order1[i]].color == Ratio(i, |order1|)
  {
    var order1 := Leaves(a1, 0);
    var n := |order1|;
    var b1 := Paint(a1, order1, n, n);
    AlignColoursParts(a1, a2);
    TreeOneColours(a1, b1);
  }

  /** Each leaf of tree 2 gets the colour of the last leaf of tree 1 that
      has its label. */
  lemma AlignColoursMatches(a1: Arena, a2: Arena)
    requires WellFormed(a1) && Full(a1, 0) && WellFormed(a2) && Full(a2, 0)
    requires AlignColours(a1, a2).Success?
    ensures var r := AlignColours(a1, a2).value;
            var order1 := Leaves(a1, 0);
            forall x, i :: && x in LeafSet(a2, 0) && 0 <= i < |order1|
                           && a1[order1[i]].lbl == a2[x].lbl
                           && LastWithLabel(a1, order1, |order1|, i)
                           ==> r.1[x].color == Ratio(i, |order1|)
  {
    var order1 := Leaves(a1, 0);
    var n := |order1|;
    var table := ColourTable(a1, order1, n, n);
    AlignColoursParts(a1, a2);
    var p := Propagate(a2, Leaves(a2, 0), table, 0);
    TreeTwoColours(a1, a2, table, p.value);
  }

  /** The lookups all succeed exactly when every leaf label of tree 2 is a
      leaf label of tree 1; otherwise the error names a missing one. */
  lemma MatchedIffLabelsShared(a1: Arena, a2: Arena)
    requires WellFormed(a1) && Full(a1, 0) && WellFormed(a2) && Full(a2, 0)
    ensures var order1 := Leaves(a1, 0);
            var p := Propagate(a2, Leaves(a2, 0), ColourTable(a1, order1, |order1|, |order1|), 0);
            && (p.Success? <==> forall x :: x in LeafSet(a2, 0) ==> a2[x].lbl in LeafLabels(a1))
            && (p.Failure? ==>
                  exists x :: && x in LeafSet(a2, 0)
                              && p.error == UnmatchedLeafLabel(a2[x].lbl)
                              && a2[x].lbl !in LeafLabels(a1))
  {
    var order1, order2 := Leaves(a1, 0), Leaves(a2, 0);
    var n := |order1|;
    var table := ColourTable(a1, order1, n, n);
    LeavesEnumerateLeafSet(a2, 0);
    TableKeysAreLeafLabels(a1);
    assert table.Keys == LeafLabels(a1);
    var p := Propagate(a2, order2, table, 0);
    if p.Failure? {
      var j :| 0 <= j < |order2| && p.error == UnmatchedLeafLabel(a2[order2[j]].lbl)
               && a2[order2[j]].lbl !in table;
      assert order2[j] in LeafSet(a2, 0);
    } else {
      forall x | x in LeafSet(a2, 0)
        ensures a2[x].lbl in LeafLabels(a1)
      {
        assert x in order2;
        var j :| 0 <= j < |order2| && order2[j] == x;
      }
    }
  }

  /** Tree 1: leaf `i` of the enumeration has colour `i / n`, every other
      node keeps its colour, and nothing but colours changes. */
  lemma TreeOneColours(a1: Arena, b1: Arena)
    requires WellFormed(a1) && Full(a1, 0)
    requires b1 == Paint(a1, Leaves(a1, 0), |Leaves(a1, 0)|, |Leaves(a1, 0)|)
    ensures OnlyColoursDiffer(a1, b1)
    ensures forall k :: 0 <= k < |a1| && k !in LeafSet(a1, 0) ==> b1[k].color == a1[k].color
    ensures var order1 := Leaves(a1, 0);
            forall i :: 0 <= i < |order1| ==> b1[order1[i]].color == Ratio(i, |order1|)
  {
    var order1 := Leaves(a1, 0);
    LeavesDistinct(a1, 0);
    LeavesEnumerateLeafSet(a1, 0);
    assert order1[..|order1|] == order1;
  }

  /** Tree 2: each leaf takes the colour `i / n` of the last tree-1 leaf
      with its label, every other node keeps its colour, nothing but colours
      changes. */
  lemma TreeTwoColours(a1: Arena, a2: Arena, table: map<string, Colour>, b2: Arena)
    requires WellFormed(a1) && Full(a1, 0) && WellFormed(a2) && Full(a2, 0)
    requires table == ColourTable(a1, Leaves(a1, 0), |Leaves(a1, 0)|, |Leaves(a1, 0)|)
    requires Propagate(a2, Leaves(a2, 0), table, 0) == Success(b2)
    ensures OnlyColoursDiffer(a2, b2)
    ensures forall k :: 0 <= k < |a2| && k !in LeafSet(a2, 0) ==> b2[k].color == a2[k].color
    ensures var order1 := Leaves(a1, 0);
            forall x, i :: && x in LeafSet(a2, 0) && 0 <= i < |order1|
                           && a1[order1[i]].lbl == a2[x].lbl
                           && LastWithLabel(a1, order1, |order1|, i)
                           ==> b2[x].color == Ratio(i, |order1|)
  {
    var order1, order2 := Leaves(a1, 0), Leaves(a2, 0);
    var n := |order1|;
    LeavesEnumerateLeafSet(a2, 0);
    assert order2[0..] == order2;
    forall x, i | && x in LeafSet(a2, 0) && 0 <= i < n
                  && a1[order1[i]].lbl == a2[x].lbl
                  && LastWithLabel(a1, order1, n, i)
      ensures b2[x].color == Ratio(i, n)
    {
      var j :| 0 <= j < |order2| && order2[j] == x;
      assert b2[x].color == table[a2[x].lbl];
    }
  }
}

=== FILE: examples_export.dfy ===
/** Worked inputs for `to_json`: colour propagation between two small trees
    and the order in which the failures are reported. */
module ExportExamples {
  import opened Wrappers
  import opened Forest
  import opened Flattening
  import opened Newick
  import opened NewickExamples
  import opened Colouring
  import opened Export

  /** The shape facts of a root with two one-letter leaves. */
  lemma PairShape(a: Arena, x: char, y: char)
    requires WellFormed(a) && |a| == 3
    requires a[0].left == Some(1) && a[0].right == Some(2) && IsLeaf(a[1]) && IsLeaf(a[2])
    requires a[1].lbl == [x] && a[2].lbl == [y]
    ensures Full(a, 0) && Leaves(a, 0) == [1, 2] && LeafSet(a, 0) == {1, 2}
    ensures Labels(a, Leaves(a, 0)) == [[x], [y]]
    ensures LeafLabels(a) == {[x], [y]}
  {
    assert Full(a, 1) && Full(a, 2);
    assert Leaves(a, 0) == Leaves(a, 1) + Leaves(a, 2);
    assert LeafSet(a, 0) == LeafSet(a, 1) + LeafSet(a, 2);
  }

  /** A complete tree whose root has the leaves `u` (key 1) and `v` (key 2). */
  predicate PairOf(a: Arena, u: string, v: string) {
    && |a| == 3 && WellFormed(a) && Full(a, 0)
    && Leaves(a, 0) == [1, 2] && LeafSet(a, 0) == {1, 2}
    && Labels(a, Leaves(a, 0)) == [u, v] && LeafLabels(a) == {u, v}
    && a[1].lbl == u && a[2].lbl == v
  }

  /** The parse of `(x,y)` for one-letter labels, with its shape facts. */
  lemma PairArena(x: char, y: char, p: string) returns (a: Arena)
    requires Letter(x) && Letter(y)
    ensures FromNewick(['(', x, ',', y, ')'], p) == Success(a) && PairOf(a, [x], [y])
  {
    PairTree(x, y, p);
    a := FromNewick(['(', x, ',', y, ')'], p).value;
    PairShape(a, x, y);
  }

  /** Two usable parses give what the colouring and flattening give. */
  lemma ToJsonOfTrees(newick1: string, newick2: string, a1: Arena, a2: Arena)
    requires FromNewick(newick1, Prefix1) == Success(a1) && Full(a1, 0)
    requires FromNewick(newick2, Prefix2) == Success(a2) && Full(a2, 0)
    ensures WellFormed(a1) && WellFormed(a2)
    ensures ToJson(newick1, newick2) == Render(a1, a2)
  {
  }

  /** Every leaf label of a tree with leaves `v`, `u` is a leaf label of a
      tree with leaves `u`, `v`. */
  lemma CrossLabelsShared(a1: Arena, a2: Arena, u: string, v: string)
    requires PairOf(a1, u, v) && PairOf(a2, v, u)
    ensures Render(a1, a2).Success?
  {
  }

  /** The colouring guarantees over the two output records: one colour per
      leaf name, ranks in the first output, namesake colours in the second. */
  predicate Coloured(r: (Record, Record)) {
    && |LeafColours(r.0)| == |LeafNames(r.0)| && |LeafColours(r.1)| == |LeafNames(r.1)|
    && (forall i :: 0 <= i < |LeafColours(r.0)| ==> LeafColours(r.0)[i] == Ratio(i, |LeafColours(r.0)|))
    && forall i, j :: && 0 <= i < |LeafNames(r.0)| && 0 <= j < |LeafNames(r.1)|
                      && LeafNames(r.0)[i] == LeafNames(r.1)[j] && LastName(LeafNames(r.0), i)
                      ==> LeafColours(r.1)[j] == LeafColours(r.0)[i]
  }

  /** The guarantees of the colouring and flattening step, about a named
      result. */
  lemma RenderFacts(a1: Arena, a2: Arena) returns (r: (Record, Record))
    requires WellFormed(a1) && Full(a1, 0) && WellFormed(a2) && Full(a2, 0)
    requires Render(a1, a2).Success?
    ensures Render(a1, a2) == Success(r)
    ensures LeafNames(r.0) == Labels(a1, Leaves(a1, 0)) && LeafNames(r.1) == Labels(a2, Leaves(a2, 0))
    ensures Coloured(r)
  {
    r := Render(a1, a2).value;
    RenderLeafNames(a1, a2);
    RenderRanks(a1, a2);
    RenderMatches(a1, a2);
  }

  /** Two records with two different leaf names in opposite orders, coloured
      by rank in the first and by namesake in the second. */
  lemma SwappedRecords(r: (Record, Record), u: string, v: string)
    requires u != v && LeafNames(r.0) == [u, v] && LeafNames(r.1) == [v, u] && Coloured(r)
    ensures LeafColours(r.0) == [Ratio(0, 2), Ratio(1, 2)] && LeafColours(r.1) == [Ratio(1, 2), Ratio(0, 2)]
  {
    var names1, names2 := LeafNames(r.0), LeafNames(r.1);
    assert LastName(names1, 0) && LastName(names1, 1);
    assert names2[0] == names1[1] && names2[1] == names1[0];
  }

  /** Colouring a tree with leaves `u`, `v` against one with leaves `v`, `u`. */
  lemma RenderCross(a1: Arena, a2: Arena, u: string, v: string)
    requires u != v && PairOf(a1, u, v) && PairOf(a2, v, u)
    ensures Render(a1, a2).Success?
    ensures var r := Render(a1, a2).value;
            && LeafNames(r.0) == [u, v] && LeafColours(r.0) == [Ratio(0, 2), Ratio(1, 2)]
            && LeafNames(r.1) == [v, u] && LeafColours(r.1) == [Ratio(1, 2), Ratio(0, 2)]
  {
    CrossLabelsShared(a1, a2, u, v);
    var r := RenderFacts(a1, a2);
    SwappedRecords(r, u, v);
  }

  /** `(x,y)` against `(y,x)` for two different labels: the first tree's
      leaves get 0/2 and 1/2 leftmost first, and the second tree's leaves
      take the colour of the leaf with the same name, so its colours come
      out swapped. */
  lemma CrossPair(x: char, y: char)
    requires Letter(x) && Letter(y) && x != y
    ensures ToJson(['(', x, ',', y, ')'], ['(', y, ',', x, ')']).Success?
    ensures var r := ToJson(['(', x, ',', y, ')'], ['(', y, ',', x, ')']).value;
            && LeafNames(r.0) == [[x], [y]] && LeafColours(r.0) == [Ratio(0, 2), Ratio(1, 2)]
            && LeafNames(r.1) == [[y], [x]] && LeafColours(r.1) == [Ratio(1, 2), Ratio(0, 2)]
  {
    var a1 := PairArena(x, y, Prefix1);
    var a2 := PairArena(y, x, Prefix2);
    RenderCross(a1, a2, [x], [y]);
    ToJsonOfTrees(['(', x, ',', y, ')'], ['(', y, ',', x, ')'], a1, a2);
  }

  /** `(A,B)` against `(B,A)`. */
  lemma CrossTreeColours()
    ensures ToJson("(A,B)", "(B,A)").Success?
    ensures var r := ToJson("(A,B)", "(B,A)").value;
            && LeafNames(r.0) == ["A", "B"] && LeafColours(r.0) == [Ratio(0, 2), Ratio(1, 2)]
            && LeafNames(r.1) == ["B", "A"] && LeafColours(r.1) == [Ratio(1, 2), Ratio(0, 2)]
  {
    assert "(A,B)" == ['(', 'A', ',', 'B', ')'];
    assert "(B,A)" == ['(', 'B', ',', 'A', ')'];
    CrossPair('A', 'B');
  }

  /** A leaf of tree 2 whose label tree 1 lacks makes the colouring fail. */
  lemma UnsharedFails(a1: Arena, a2: Arena, x: nat)
    requires WellFormed(a1) && Full(a1, 0) && WellFormed(a2) && Full(a2, 0)
    requires x in LeafSet(a2, 0) && a2[x].lbl !in LeafLabels(a1)
    ensures Render(a1, a2).Failure?
  {
  }

  /** When the leaves of tree 2 are labelled `u` and `w` and only `u` is a
      leaf label of tree 1, a failure names `w`. */
  lemma FailureNames(a1: Arena, a2: Arena, u: string, w: string)
    requires WellFormed(a1) && Full(a1, 0) && WellFormed(a2) && Full(a2, 0)
    requires Render(a1, a2).Failure?
    requires u in LeafLabels(a1) && LeafSet(a2, 0) == {1, 2} && a2[1].lbl == u && a2[2].lbl == w
    ensures Render(a1, a2).error == MissingColour(w)
  {
    var e := Render(a1, a2).error;
    var x :| x in LeafSet(a2, 0) && a2[x].lbl == e.lbl;
    assert x == 1 || x == 2;
  }

  /** A leaf label of tree 2 that tree 1 lacks, next to one it has, is the
      one reported. */
  lemma RenderUnmatched(a1: Arena, a2: Arena, u: string, v: string, w: string)
    requires WellFormed(a1) && Full(a1, 0) && WellFormed(a2) && Full(a2, 0)
    requires LeafLabels(a1) == {u, v} && LeafSet(a2, 0) == {1, 2} && a2[1].lbl == u && a2[2].lbl == w
    requires w != u && w != v
    ensures Render(a1, a2) == Failure(MissingColour(w))
  {
    UnsharedFails(a1, a2, 2);
    FailureNames(a1, a2, u, w);
  }

  /** `(x,y)` against `(x,z)` for a label `z` that tree 1 lacks: the failure
      names `z`. */
  lemma UnmatchedPair(x: char, y: char, z: char)
    requires Letter(x) && Letter(y) && Letter(z) && z != x && z != y
    ensures ToJson(['(', x, ',', y, ')'], ['(', x, ',', z, ')']) == Failure(MissingColour([z]))
  {
    var a1 := PairArena(x, y, Prefix1);
    var a2 := PairArena(x, z, Prefix2);
    RenderUnmatched(a1, a2, [x], [y], [z]);
    ToJsonOfTrees(['(', x, ',', y, ')'], ['(', x, ',', z, ')'], a1, a2);
  }

  /** `(A,B)` against `(A,C)`: the label `C` has no colour in the table, and
      the failure names it. */
  lemma UnmatchedLabel()
    ensures ToJson("(A,B)", "(A,C)") == Failure(MissingColour("C"))
  {
    assert "(A,B)" == ['(', 'A', ',', 'B', ')'];
    assert "(A,C)" == ['(', 'A', ',', 'C', ')'];
    UnmatchedPair('A', 'B', 'C');
  }

  /** An empty first tree raises before the second tree is looked at. */
  lemma EmptyFirstTree(newick2: string)
    ensures ToJson("", newick2) == Failure(ParseRaised(1, EmptyInput))
  {
  }

  /** Unbalanced closing brackets in tree 1 give no tree, reported only once
      tree 2 has parsed without raising. */
  lemma ExtraCloseFirstTree()
    ensures ToJson("(A,B))", "(A,B)") == Failure(NoTree(1))
  {
    ExtraClose();
    assert "(A,B)" == ['(', 'A', ',', 'B', ')'];
    PairTree('A', 'B', Prefix2);
    NoTreeFirst("(A,B))", "(A,B)");
  }

  /** A first tree with no tree is reported once neither parse raised. */
  lemma NoTreeFirst(newick1: string, newick2: string)
    requires FromNewick(newick1, Prefix1) == Failure(MalformedBracketing)
    requires !Raised(FromNewick(newick2, Prefix2))
    ensures ToJson(newick1, newick2) == Failure(NoTree(1))
  {
  }

  /** An incomplete first tree is reported once neither parse raised. */
  lemma IncompleteFirst(newick1: string, newick2: string)
    requires FromNewick(newick1, Prefix1).Success? && !Full(FromNewick(newick1, Prefix1).value, 0)
    requires !Raised(FromNewick(newick2, Prefix2))
    ensures ToJson(newick1, newick2) == Failure(IncompleteTree(1))
  {
  }

  /** A single child under the root leaves tree 1 incomplete. */
  lemma SingleChildFirstTree()
    ensures ToJson("(A)", "(A,B)") == Failure(IncompleteTree(1))
  {
    SingleChild();
    assert "(A,B)" == ['(', 'A', ',', 'B', ')'];
    PairTree('A', 'B', Prefix2);
    IncompleteFirst("(A)", "(A,B)");
  }

  /** A raising second tree wins over a first tree that gives no tree. */
  lemma RaiseBeforeNoTree()
    ensures ToJson("(A,B))", "") == Failure(ParseRaised(2, EmptyInput))
  {
    ExtraClose();
  }
}

=== FILE: examples_newick.dfy ===
/** Worked inputs for the parser. Each walk goes through the scan token by
    token, in stages, using the contracts of the token steps. */
module NewickExamples {
  import opened Wrappers
  import opened Text
  import opened Forest
  import opened Newick

  lemma StripLetter(c: char)
    requires !IsSpace(c)
    ensures Strip([c]) == [c]
  {
    assert StripStart([c]) == 0;
    assert StripEnd([c]) == 1;
  }

  /** Reading a one-letter label that a `,` or `)` ends: only the current
      node's label changes, to that letter. */
  lemma ReadLetter(t: string, p: string, st: Parser) returns (s: Parser)
    requires Valid(t, p, st) && st.cursor + 1 < |t|
    requires !IsSpace(t[st.cursor]) && t[st.cursor] != OpenBracket && !EndsRun(t[st.cursor])
    requires EndsRun(t[st.cursor + 1])
    ensures Valid(t, p, s) && Scan(t, p, st) == Scan(t, p, s)
    ensures s == st.(nodes := st.nodes[st.current := st.nodes[st.current].(lbl := [t[st.cursor]])],
                     cursor := st.cursor + 1)
  {
    ScanLabel(t, p, st);
    LetterRunEnds(t, p, st);
    StripLetter(t[st.cursor]);
    s := LabelRun(t, p, st);
  }

  /** A one-letter label run ends right after the letter. */
  lemma LetterRunEnds(t: string, p: string, st: Parser)
    requires Valid(t, p, st) && st.cursor + 1 < |t|
    requires t[st.cursor] != OpenBracket && !EndsRun(t[st.cursor])
    requires EndsRun(t[st.cursor + 1])
    ensures LabelRun(t, p, st).cursor == st.cursor + 1
    ensures t[st.cursor..LabelRun(t, p, st).cursor] == [t[st.cursor]]
  {
    var c := st.cursor;
    var s := LabelRun(t, p, st);
    assert EndsRun(t[c + 1]);
    assert s.cursor == c + 1;
  }

  /** The state after reading `(`. */
  lemma OpenFirst(t: string, p: string) returns (s: Parser)
    requires |t| >= 1 && t[0] == '('
    ensures Valid(t, p, s) && Scan(t, p, Start(t, p)) == Scan(t, p, s)
    ensures s.cursor == 1 && s.current == 1 && s.brackets == 1 && |s.nodes| == 2
    ensures s.nodes[0].left == Some(1) && s.nodes[0].right == None
    ensures s.nodes[1].parent == Some(0) && IsLeaf(s.nodes[1])
  {
    var s0 := Start(t, p);
    ScanOpen(t, p, s0);
    s := Open(t, p, s0);
  }

  /** A character that starts and ends a one-letter label: not whitespace,
      not a bracket, not a comma. */
  predicate Letter(c: char) {
    !IsSpace(c) && c != OpenBracket && !EndsRun(c)
  }

  /** The state after reading `(x` when a `,` or `)` follows. */
  lemma OpenLeaf(t: string, p: string, x: char) returns (s: Parser)
    requires |t| >= 3 && t[0] == '(' && t[1] == x && Letter(x) && EndsRun(t[2])
    ensures Valid(t, p, s) && Scan(t, p, Start(t, p)) == Scan(t, p, s)
    ensures s.cursor == 2 && s.current == 1 && s.brackets == 1 && |s.nodes| == 2
    ensures s.nodes[0].left == Some(1) && s.nodes[0].right == None
    ensures s.nodes[1].parent == Some(0) && IsLeaf(s.nodes[1]) && s.nodes[1].lbl == [x]
  {
    var s1 := OpenFirst(t, p);
    s := ReadLetter(t, p, s1);
  }

  /** The state after reading `(x,`. */
  lemma OpenComma(t: string, p: string, x: char) returns (s: Parser)
    requires |t| >= 4 && t[0] == '(' && t[1] == x && Letter(x) && t[2] == ','
    ensures Valid(t, p, s) && Scan(t, p, Start(t, p)) == Scan(t, p, s)
    ensures s.cursor == 3 && s.current == 2 && s.brackets == 1 && |s.nodes| == 3
    ensures s.nodes[0].left == Some(1) && s.nodes[0].right == Some(2)
    ensures IsLeaf(s.nodes[1]) && s.nodes[1].lbl == [x]
    ensures s.nodes[2].parent == Some(0) && IsLeaf(s.nodes[2])
  {
    var s2 := OpenLeaf(t, p, x);
    ScanSeparate(t, p, s2);
    s := Separate(t, p, s2).value;
  }

  /** The state after reading `(x,y` when a `,` or `)` follows. */
  lemma OpenPair(t: string, p: string, x: char, y: char) returns (s: Parser)
    requires |t| >= 5 && t[0] == '(' && t[1] == x && t[2] == ',' && t[3] == y && EndsRun(t[4])
    requires Letter(x) && Letter(y)
    ensures Valid(t, p, s) && Scan(t, p, Start(t, p)) == Scan(t, p, s)
    ensures s.cursor == 4 && s.current == 2 && s.brackets == 1 && |s.nodes| == 3
    ensures s.nodes[0].left == Some(1) && s.nodes[0].right == Some(2)
    ensures IsLeaf(s.nodes[1]) && s.nodes[1].lbl == [x]
    ensures s.nodes[2].parent == Some(0) && IsLeaf(s.nodes[2]) && s.nodes[2].lbl == [y]
  {
    var s3 := OpenComma(t, p, x);
    s := ReadLetter(t, p, s3);
  }

  lemma BalancedPairWalk(t: string, p: string, x: char, y: char) returns (s: Parser)
    requires |t| == 5 && t[0] == '(' && t[1] == x && t[2] == ',' && t[3] == y && t[4] == ')'
    requires Letter(x) && Letter(y)
    ensures Scan(t, p, Start(t, p)) == Success(s)
    ensures |s.nodes| == 3 && s.nodes[0].left == Some(1) && s.nodes[0].right == Some(2)
    ensures IsLeaf(s.nodes[1]) && IsLeaf(s.nodes[2]) && s.nodes[1].lbl == [x] && s.nodes[2].lbl == [y]
  {
    var s4 := OpenPair(t, p, x, y);
    ScanClose(t, p, s4);
    s := Close(t, p, s4).value;
  }

  /** `(x,y)` for one-letter labels `x` and `y` is a root with the leaf `x`
      (key 1) on the left and the leaf `y` (key 2) on the right. */
  lemma PairTree(x: char, y: char, p: string)
    requires Letter(x) && Letter(y)
    ensures FromNewick(['(', x, ',', y, ')'], p).Success?
    ensures var a := FromNewick(['(', x, ',', y, ')'], p).value;
            && |a| == 3
            && a[0].left == Some(1) && a[0].right == Some(2)
            && IsLeaf(a[1]) && IsLeaf(a[2])
            && a[1].lbl == [x] && a[2].lbl == [y]
  {
    var t := ['(', x, ',', y, ')'];
    assert Body(t) == t;
    var s := BalancedPairWalk(t, p, x, y);
  }

  /** `(A,B)` is a root with leaves `A` (key 1, left) and `B` (key 2, right). */
  lemma BalancedPair()
    ensures FromNewick("(A,B)", "p").Success?
    ensures var a := FromNewick("(A,B)", "p").value;
            && |a| == 3
            && a[0].left == Some(1) && a[0].right == Some(2)
            && IsLeaf(a[1]) && IsLeaf(a[2])
            && a[1].lbl == "A" && a[2].lbl == "B"
  {
    assert "(A,B)" == ['(', 'A', ',', 'B', ')'];
    PairTree('A', 'B', "p");
  }

  lemma OverwriteWalk(t: string, p: string, x: char, y: char, z: char) returns (s: Parser)
    requires |t| == 8 && t[0] == '(' && t[1] == x && t[2] == ',' && t[3] == y && t[4] == ')'
    requires t[5] == '(' && t[6] == z && t[7] == ')'
    requires Letter(x) && Letter(y) && Letter(z)
    ensures Scan(t, p, Start(t, p)) == Success(s)
    ensures |s.nodes| == 4 && s.nodes[0].left == Some(1) && s.nodes[0].right == Some(3)
    ensures IsLeaf(s.nodes[1]) && IsLeaf(s.nodes[3]) && s.nodes[1].lbl == [x] && s.nodes[3].lbl == [z]
    ensures s.nodes[2].lbl == [y] && s.nodes[2].parent == Some(0)
  {
    var s4 := OpenPair(t, p, x, y);
    ScanClose(t, p, s4);
    var s5 := Close(t, p, s4).value;
    ScanOpen(t, p, s5);
    var s6 := Open(t, p, s5);
    var s7 := ReadLetter(t, p, s6);
    ScanClose(t, p, s7);
    s := Close(t, p, s7).value;
  }

  /** `(x,y)(z)`: the `(` after `)` finds the root with both slots filled, so
      the new node overwrites its right slot. The result is a complete tree
      with leaves `x` and `z`; the node labelled `y` still names the root as
      its parent but is in no subtree. */
  lemma OverwrittenSibling(x: char, y: char, z: char, p: string)
    requires Letter(x) && Letter(y) && Letter(z)
    ensures FromNewick(['(', x, ',', y, ')', '(', z, ')'], p).Success?
    ensures var a := FromNewick(['(', x, ',', y, ')', '(', z, ')'], p).value;
            && |a| == 4 && Full(a, 0)
            && a[0].left == Some(1) && a[0].right == Some(3)
            && a[1].lbl == [x] && a[3].lbl == [z]
            && a[2].lbl == [y] && a[2].parent == Some(0)
            && LeafSet(a, 0) == {1, 3} && 2 !in SubtreeNodeSet(a, 0)
  {
    var t := ['(', x, ',', y, ')', '(', z, ')'];
    assert Body(t) == t;
    var s := OverwriteWalk(t, p, x, y, z);
    OverwriteShape(s.nodes);
  }

  /** A root with leaves 1 and 3 is complete, and node 2 is in no subtree. */
  lemma OverwriteShape(a: Arena)
    requires WellFormed(a) && |a| == 4 && a[0].left == Some(1) && a[0].right == Some(3)
    requires IsLeaf(a[1]) && IsLeaf(a[3])
    ensures Full(a, 0) && LeafSet(a, 0) == {1, 3} && 2 !in SubtreeNodeSet(a, 0)
  {
    assert Full(a, 1) && Full(a, 3);
    assert LeafSet(a, 0) == LeafSet(a, 1) + LeafSet(a, 3);
    assert SubtreeNodeSet(a, 0) == SubtreeNodeSet(a, 1) + SubtreeNodeSet(a, 3) + {0};
  }

  /** `(A,B)(C)` keeps `A` and `C`; `B` is silently dropped. */
  lemma OverwrittenB()
    ensures FromNewick("(A,B)(C)", "p").Success?
    ensures var a := FromNewick("(A,B)(C)", "p").value;
            && Full(a, 0) && LeafSet(a, 0) == {1, 3} && a[1].lbl == "A" && a[3].lbl == "C"
            && a[2].lbl == "B" && 2 !in SubtreeNodeSet(a, 0)
  {
    assert "(A,B)(C)" == ['(', 'A', ',', 'B', ')', '(', 'C', ')'];
    OverwrittenSibling('A', 'B', 'C', "p");
  }

  lemma ExtraCloseWalk(t: string, p: string)
    requires |t| == 6 && t[0] == '(' && t[1] == 'A' && t[2] == ',' && t[3] == 'B'
    requires t[4] == ')' && t[5] == ')'
    ensures Scan(t, p, Start(t, p)) == Failure(MalformedBracketing)
  {
    var s4 := OpenPair(t, p, 'A', 'B');
    ScanClose(t, p, s4);
    var s5 := Close(t, p, s4).value;
    ScanClose(t, p, s5);
  }

  /** `(A,B))`: the second `)` leaves the root, so the parse fails as a whole. */
  lemma ExtraClose()
    ensures FromNewick("(A,B))", "p") == Failure(MalformedBracketing)
  {
    assert Body("(A,B))") == "(A,B))";
    ExtraCloseWalk("(A,B))", "p");
  }

  lemma ThirdChildWalk(t: string, p: string)
    requires |t| == 7 && t[0] == '(' && t[1] == 'A' && t[2] == ',' && t[3] == 'B' && t[4] == ','
    ensures Scan(t, p, Start(t, p)) == Failure(TooManyChildren)
  {
    var s4 := OpenPair(t, p, 'A', 'B');
    ScanSeparate(t, p, s4);
  }

  /** `(A,B,C)`: the second `,` finds the root's right slot taken. */
  lemma ThirdChild()
    ensures FromNewick("(A,B,C)", "p") == Failure(TooManyChildren)
  {
    assert Body("(A,B,C)") == "(A,B,C)";
    ThirdChildWalk("(A,B,C)", "p");
  }

  lemma TopLevelSiblingWalk(t: string, p: string)
    requires |t| == 3 && t[0] == 'A' && t[1] == ','
    ensures Scan(t, p, Start(t, p)) == Failure(OrphanSibling)
  {
    var s0 := Start(t, p);
    ScanLabel(t, p, s0);
    var s1 := LabelRun(t, p, s0);
    assert s1.cursor == 1;
    ScanSeparate(t, p, s1);
  }

  /** `A,B`: a `,` at the root has no parent to attach a sibling to. */
  lemma TopLevelSibling()
    ensures FromNewick("A,B", "p") == Failure(OrphanSibling)
  {
    assert Body("A,B") == "A,B";
    TopLevelSiblingWalk("A,B", "p");
  }

  lemma UnclosedBracketWalk(t: string, p: string) returns (s: Parser)
    requires |t| == 2 && t[0] == '(' && t[1] == 'A'
    ensures Scan(t, p, Start(t, p)) == Success(s)
    ensures s.brackets == 1 && |s.nodes| == 2
    ensures s.nodes[0].left == Some(1) && s.nodes[0].right == None
  {
    var s0 := Start(t, p);
    ScanOpen(t, p, s0);
    var s1 := Open(t, p, s0);
    ScanLabel(t, p, s1);
    s := LabelRun(t, p, s1);
  }

  /** `(A`: an unclosed bracket is not an error; the root is returned. */
  lemma UnclosedBracket()
    ensures FromNewick("(A", "p").Success?
    ensures var a := FromNewick("(A", "p").value;
            |a| == 2 && a[0].left == Some(1) && a[0].right == None
  {
    assert Body("(A") == "(A";
    var s := UnclosedBracketWalk("(A", "p");
  }

  lemma SingleChildWalk(t: string, p: string) returns (s: Parser)
    requires |t| == 3 && t[0] == '(' && t[1] == 'A' && t[2] == ')'
    ensures Scan(t, p, Start(t, p)) == Success(s)
    ensures |s.nodes| == 2 && s.nodes[0].left == Some(1) && s.nodes[0].right == None
  {
    var s2 := OpenLeaf(t, p, 'A');
    ScanClose(t, p, s2);
    s := Close(t, p, s2).value;
  }

  /** `(A)`: a node with a single child is accepted, so the result need not be full. */
  lemma SingleChild()
    ensures FromNewick("(A)", "p").Success?
    ensures var a := FromNewick("(A)", "p").value; !Full(a, 0)
  {
    assert Body("(A)") == "(A)";
    var s := SingleChildWalk("(A)", "p");
  }

  /** Input that holds no `(` at its start and no `,` or `)` anywhere is a
      single leaf whose label is the stripped input. */
  lemma BareLabel(newick: string, prefix: string)
    requires |newick| > 0 && |Body(newick)| > 0
    requires Body(newick)[0] != OpenBracket
    requires forall k :: 0 <= k < |Body(newick)| ==> !EndsRun(Body(newick)[k])
    ensures FromNewick(newick, prefix).Success?
    ensures var a := FromNewick(newick, prefix).value;
            |a| == 1 && IsLeaf(a[0]) && a[0].lbl == Strip(Body(newick))
  {
    var t := Body(newick);
    var s0 := Start(t, prefix);
    ScanLabel(t, prefix, s0);
    var s1 := LabelRun(t, prefix, s0);
    assert s1.cursor == |t|;
    assert t[0..|t|] == t;
  }

  /** `A;`: the trailing `;` is dropped and the root alone is labelled `A`. */
  lemma TerminatedLabel()
    ensures FromNewick("A;", "p").Success?
    ensures var a := FromNewick("A;", "p").value; |a| == 1 && IsLeaf(a[0]) && a[0].lbl == "A"
  {
    assert Body("A;") == "A";
    BareLabel("A;", "p");
    StripLetter('A');
  }
}

=== FILE: export.dfy ===
/** `to_json(newick1, newick2, out1, out2)` without the file writes: both
    trees are parsed (prefixes `p` and `q`), coloured, and flattened into the
    two records that would be written as JSON. */
module Export {
  import opened Wrappers
  import opened Forest
  import opened Flattening
  import opened Newick
  import opened Colouring

  const Prefix1 := "p"
  const Prefix2 := "q"

  /** Why `to_json` writes nothing. */
  datatype ExportError =
      /** `from_newick` raised for tree 1 or 2. */
    | ParseRaised(tree: nat, reason: ParseError)
      /** `from_newick` returned `None` (a `)` too many); the first use of
          that root then fails. */
    | NoTree(tree: nat)
      /** A reachable node has a left child but no right child; `leaf_set`
          then dereferences the missing one. */
    | IncompleteTree(tree: nat)
      /** A leaf label of tree 2 is not in the colour table (`KeyError`). */
    | MissingColour(lbl: string)

  /** The parse raised, as opposed to returning a tree or `None`. */
  predicate Raised(p: Result<Arena, ParseError>) {
    p.Failure? && p.error != MalformedBracketing
  }

  /** A parse result that `to_json` can use: a tree in which every reachable
      internal node has both children. */
  predicate Usable(p: Result<Arena, ParseError>) {
    p.Success? && WellFormed(p.value) && Full(p.value, 0)
  }

  /** The part of `to_json` after parsing: colour both trees, then flatten
      them. */
  function Render(a1: Arena, a2: Arena): (r: Result<(Record, Record), ExportError>)
    requires WellFormed(a1) && Full(a1, 0) && WellFormed(a2) && Full(a2, 0)
    ensures r.Success? <==> forall x :: x in LeafSet(a2, 0) ==> a2[x].lbl in LeafLabels(a1)
    ensures r.Failure? ==>
              && r.error.MissingColour? && r.error.lbl !in LeafLabels(a1)
              && exists x :: x in LeafSet(a2, 0) && a2[x].lbl == r.error.lbl
  {
    match AlignColours(a1, a2)
    case Failure(e) => Failure(MissingColour(e.lbl))
    case Success(pair) =>
      RecolourKeepsShape(a1, pair.0, 0);
      RecolourKeepsShape(a2, pair.1, 0);
      Success((Flatten(pair.0, 0), Flatten(pair.1, 0)))
  }

  function ToJson(newick1: string, newick2: string): (r: Result<(Record, Record), ExportError>)
    ensures var p1, p2 := FromNewick(newick1, Prefix1), FromNewick(newick2, Prefix2);
            r.Success? ==> Usable(p1) && Usable(p2) && r == Render(p1.value, p2.value)
    ensures var p1, p2 := FromNewick(newick1, Prefix1), FromNewick(newick2, Prefix2);
            r.Failure? && r.error.ParseRaised? ==>
              && (r.error.tree == 1 ==> p1 == Failure(r.error.reason))
              && (r.error.tree == 2 ==> !Raised(p1) && p2 == Failure(r.error.reason))
              && r.error.tree in {1, 2} && r.error.reason != MalformedBracketing
    ensures var p1, p2 := FromNewick(newick1, Prefix1), FromNewick(newick2, Prefix2);
            r.Failure? && (r.error.NoTree? || r.error.IncompleteTree?) ==>
              && !Raised(p1) && !Raised(p2) && r.error.tree in {1, 2}
              && (r.error.tree == 2 ==> Usable(p1))
              && (r.error.NoTree? ==> (if r.error.tree == 1 then p1 else p2) == Failure(MalformedBracketing))
              && (r.error.IncompleteTree? ==>
                    var p := if r.error.tree == 1 then p1 else p2;
                    p.Success? && !Full(p.value, 0))
    ensures var p1, p2 := FromNewick(newick1, Prefix1), FromNewick(newick2, Prefix2);
            (Usable(p1) && Usable(p2)) ==> r == Render(p1.value, p2.value)
    ensures var p1, p2 := FromNewick(newick1, Prefix1), FromNewick(newick2, Prefix2);
            r.Failure? && r.error.MissingColour? ==>
              Usable(p1) && Usable(p2) && r == Render(p1.value, p2.value)
  {
    var p1 := FromNewick(newick1, Prefix1);
    var p2 := FromNewick(newick2, Prefix2);
    if Raised(p1) then Failure(ParseRaised(1, p1.error))
    else if Raised(p2) then Failure(ParseRaised(2, p2.error))
    else if p1.Failure? then Failure(NoTree(1))
    else if !Full(p1.value, 0) then Failure(IncompleteTree(1))
    else if p2.Failure? then Failure(NoTree(2))
    else if !Full(p2.value, 0) then Failure(IncompleteTree(2))
    else Render(p1.value, p2.value)
  }

  /** On success the two records are the flattened trees that the colouring
      step returned. */
  lemma RenderParts(a1: Arena, a2: Arena)
    requires WellFormed(a1) && Full(a1, 0) && WellFormed(a2) && Full(a2, 0)
    requires Render(a1, a2).Success?
    ensures AlignColours(a1, a2).Success?
    ensures var b := AlignColours(a1, a2).value;
            && OnlyColoursDiffer(a1, b.0) && OnlyColoursDiffer(a2, b.1)
            && WellFormed(b.0) && Full(b.0, 0) && WellFormed(b.1) && Full(b.1, 0)
            && Leaves(b.0, 0) == Leaves(a1, 0) && Leaves(b.1, 0) == Leaves(a2, 0)
            && Render(a1, a2).value == (Flatten(b.0, 0), Flatten(b.1, 0))
  {
    var b := AlignColours(a1, a2).value;
    RecolourKeepsShape(a1, b.0, 0);
    RecolourKeepsShape(a2, b.1, 0);
  }

  /** Recolouring leaves the labels alone. */
  lemma RecolourKeepsLabels(a: Arena, b: Arena, xs: seq<nat>)
    requires OnlyColoursDiffer(a, b)
    requires forall i :: 0 <= i < |xs| ==> xs[i] < |a|
    ensures Labels(b, xs) == Labels(a, xs)
  {
    assert forall i :: 0 <= i < |xs| ==> b[xs[i]].lbl == a[xs[i]].lbl;
  }

  /** Flattening a recoloured tree: its leaf records carry the labels of the
      original leaves and the new colours, leftmost first. */
  lemma FlattenRecoloured(a: Arena, b: Arena)
    requires WellFormed(a) && Full(a, 0) && OnlyColoursDiffer(a, b)
    ensures WellFormed(b) && Full(b, 0)
    ensures LeafNames(Flatten(b, 0)) == Labels(a, Leaves(a, 0))
    ensures LeafColours(Flatten(b, 0)) == Colours(b, Leaves(a, 0))
  {
    RecolourKeepsShape(a, b, 0);
    FlattenLeafNames(b, 0);
    FlattenLeafColours(b, 0);
    RecolourKeepsLabels(a, b, Leaves(a, 0));
  }

  /** Flattening a tree recoloured at its leaves only: every internal record
      has the colour `c` all nodes had before. */
  lemma FlattenRecolouredInner(a: Arena, b: Arena, c: Colour)
    requires WellFormed(a) && Full(a, 0) && OnlyColoursDiffer(a, b)
    requires forall k :: 0 <= k < |a| && k !in LeafSet(a, 0) ==> b[k].color == a[k].color
    requires forall k :: 0 <= k < |a| ==> a[k].color == c
    ensures WellFormed(b) && Full(b, 0) && InnerColours(Flatten(b, 0), c)
  {
    RecolourKeepsShape(a, b, 0);
    forall x | x in SubtreeNodeSet(b, 0) && !IsLeaf(b[x])
      ensures b[x].color == c
    {
      assert !IsLeaf(a[x]);
      assert x !in LeafSet(a, 0);
    }
    FlattenInnerColours(b, 0, c);
  }

  /** The leaf records of both outputs name the leaves of the parsed trees,
      leftmost first, by their labels; there is one colour per name. */
  lemma RenderLeafNames(a1: Arena, a2: Arena)
    requires WellFormed(a1) && Full(a1, 0) && WellFormed(a2) && Full(a2, 0)
    requires Render(a1, a2).Success?
    ensures var r := Render(a1, a2).value;
            && LeafNames(r.0) == Labels(a1, Leaves(a1, 0))
            && LeafNames(r.1) == Labels(a2, Leaves(a2, 0))
            && |LeafColours(r.0)| == |LeafNames(r.0)| && |LeafColours(r.1)| == |LeafNames(r.1)|
  {
    RenderParts(a1, a2);
    var b := AlignColours(a1, a2).value;
    FlattenRecoloured(a1, b.0);
    FlattenRecoloured(a2, b.1);
  }

  /** Leaf `i` of `n` in the first output, leftmost first, has colour `i / n`. */
  lemma RenderRanks(a1: Arena, a2: Arena)
    requires WellFormed(a1) && Full(a1, 0) && WellFormed(a2) && Full(a2, 0)
    requires Render(a1, a2).Success?
    ensures var c := LeafColours(Render(a1, a2).value.0);
            forall i :: 0 <= i < |c| ==> c[i] == Ratio(i, |c|)
  {
    RenderParts(a1, a2);
    var b := AlignColours(a1, a2).value;
    FlattenRecoloured(a1, b.0);
    AlignColoursRanks(a1, a2);
  }

  /** A record whose leaf colours are the ranks `i / n`, leftmost first. */
  lemma RankedLeavesSpread(r: Record)
    requires forall i :: 0 <= i < |LeafColours(r)| ==> LeafColours(r)[i] == Ratio(i, |LeafColours(r)|)
    ensures DistinctInUnitInterval(LeafColours(r))
  {
    RankSequence(LeafColours(r));
  }

  /** The leaf colours of the first output are pairwise different and lie
      in [0, 1). */
  lemma RenderColoursDistinct(a1: Arena, a2: Arena)
    requires WellFormed(a1) && Full(a1, 0) && WellFormed(a2) && Full(a2, 0)
    requires Render(a1, a2).Success?
    ensures DistinctInUnitInterval(LeafColours(Render(a1, a2).value.0))
  {
    RenderRanks(a1, a2);
    RankedLeavesSpread(Render(a1, a2).value.0);
  }

  /** Position `i` holds the last occurrence of its name. */
  predicate LastName(names: seq<string>, i: nat)
    requires i < |names|
  {
    forall i' :: i < i' < |names| ==> names[i'] != names[i]
  }

  /** The last occurrence of a name among the labels of `order` is the last
      position of that label in `order`. */
  lemma LastNameIsLastWithLabel(a: Arena, order: seq<nat>, i: nat)
    requires InArena(a, order) && i < |order|
    requires LastName(Labels(a, order), i)
    ensures LastWithLabel(a, order, |order|, i)
  {
    var names := Labels(a, order);
    forall i' | i < i' < |order|
      ensures a[order[i']].lbl != a[order[i]].lbl
    {
      assert names[i'] != names[i];
    }
  }

  /** The colouring facts, restated over the label and colour sequences of
      the two leaf enumerations. */
  lemma MatchedColourSequences(a1: Arena, a2: Arena, b1: Arena, b2: Arena,
                               order1: seq<nat>, order2: seq<nat>)
    requires InArena(a1, order1) && InArena(a2, order2)
    requires |b1| == |a1| && |b2| == |a2|
    requires forall i :: 0 <= i < |order1| ==> b1[order1[i]].color == Ratio(i, |order1|)
    requires forall x, i :: && x in order2 && 0 <= i < |order1|
                            && a1[order1[i]].lbl == a2[x].lbl
                            && LastWithLabel(a1, order1, |order1|, i)
                            ==> b2[x].color == Ratio(i, |order1|)
    ensures var names1, names2 := Labels(a1, order1), Labels(a2, order2);
            var colours1, colours2 := Colours(b1, order1), Colours(b2, order2);
            forall i, j :: && 0 <= i < |names1| && 0 <= j < |names2|
                           && names1[i] == names2[j] && LastName(names1, i)
                           ==> colours2[j] == colours1[i]
  {
    var names1, names2 := Labels(a1, order1), Labels(a2, order2);
    forall i, j | && 0 <= i < |names1| && 0 <= j < |names2|
                  && names1[i] == names2[j] && LastName(names1, i)
      ensures Colours(b2, order2)[j] == Colours(b1, order1)[i]
    {
      assert order2[j] in order2;
      LastNameIsLastWithLabel(a1, order1, i);
    }
  }

  /** Each leaf record of the second output has the colour of the last leaf
      record of the first output with the same name. */
  lemma RenderMatches(a1: Arena, a2: Arena)
    requires WellFormed(a1) && Full(a1, 0) && WellFormed(a2) && Full(a2, 0)
    requires Render(a1, a2).Success?
    ensures var r := Render(a1, a2).value;
            var names1, names2 := LeafNames(r.0), LeafNames(r.1);
            && |LeafColours(r.0)| == |names1| && |LeafColours(r.1)| == |names2|
            && forall i, j :: && 0 <= i < |names1| && 0 <= j < |names2|
                              && names1[i] == names2[j] && LastName(names1, i)
                              ==> LeafColours(r.1)[j] == LeafColours(r.0)[i]
  {
    RenderParts(a1, a2);
    var b := AlignColours(a1, a2).value;
    FlattenRecoloured(a1, b.0);
    FlattenRecoloured(a2, b.1);
    AlignedColourSequences(a1, a2);
  }

  /** The colouring step's guarantees over the label and colour sequences
      of the two leaf enumerations. */
  lemma AlignedColourSequences(a1: Arena, a2: Arena)
    requires WellFormed(a1) && Full(a1, 0) && WellFormed(a2) && Full(a2, 0)
    requires AlignColours(a1, a2).Success?
    ensures var b := AlignColours(a1, a2).value;
            var order1, order2 := Leaves(a1, 0), Leaves(a2, 0);
            && |b.0| == |a1| && |b.1| == |a2|
            && var names1, names2 := Labels(a1, order1), Labels(a2, order2);
               var colours1, colours2 := Colours(b.0, order1), Colours(b.1, order2);
               forall i, j :: && 0 <= i < |names1| && 0 <= j < |names2|
                              && names1[i] == names2[j] && LastName(names1, i)
                              ==> colours2[j] == colours1[i]
  {
    var b := AlignColours(a1, a2).value;
    var order1, order2 := Leaves(a1, 0), Leaves(a2, 0);
    AlignColoursKeepsInner(a1, a2);
    AlignColoursRanks(a1, a2);
    AlignColoursMatches(a1, a2);
    LeavesEnumerateLeafSet(a2, 0);
    MatchedColourSequences(a1, a2, b.0, b.1, order1, order2);
  }

  /** Every internal record of both outputs has the colour all nodes had
      before colouring. */
  lemma RenderInnerColours(a1: Arena, a2: Arena, c: Colour)
    requires WellFormed(a1) && Full(a1, 0) && WellFormed(a2) && Full(a2, 0)
    requires Render(a1, a2).Success?
    requires forall k :: 0 <= k < |a1| ==> a1[k].color == c
    requires forall k :: 0 <= k < |a2| ==> a2[k].color == c
    ensures var r := Render(a1, a2).value;
            InnerColours(r.0, c) && InnerColours(r.1, c)
  {
    RenderParts(a1, a2);
    var b := AlignColours(a1, a2).value;
    AlignColoursKeepsInner(a1, a2);
    FlattenRecolouredInner(a1, b.0, c);
    FlattenRecolouredInner(a2, b.1, c);
  }

  /** `to_json` succeeds exactly when both parses give complete trees and
      every leaf label of tree 2 is a leaf label of tree 1; internal records
      then keep the colour `#555`. */
  lemma ToJsonSucceeds(newick1: string, newick2: string)
    ensures var p1, p2 := FromNewick(newick1, Prefix1), FromNewick(newick2, Prefix2);
            ToJson(newick1, newick2).Success? <==>
              && Usable(p1) && Usable(p2)
              && forall x :: x in LeafSet(p2.value, 0) ==> p2.value[x].lbl in LeafLabels(p1.value)
    ensures var r := ToJson(newick1, newick2);
            r.Success? ==> InnerColours(r.value.0, DefaultColour) && InnerColours(r.value.1, DefaultColour)
  {
    var p1, p2 := FromNewick(newick1, Prefix1), FromNewick(newick2, Prefix2);
    if ToJson(newick1, newick2).Success? {
      RenderInnerColours(p1.value, p2.value, DefaultColour);
    }
  }
}

=== FILE: flatten.dfy ===
/** `Node.flatten`: the nested record that is later written out as JSON. */
module Flattening {
  import opened Text
  import opened Forest

  /** A leaf record `{"name", "color"}`, or an internal record
      `{"name", "color", "children": [left, right]}`. */
  datatype Record =
    | LeafRecord(name: string, color: Colour)
    | InnerRecord(name: string, color: Colour, left: Record, right: Record)

  /** The `children` list of a record; a leaf record has no `children` key. */
  function Children(r: Record): seq<Record> {
    match r
    case LeafRecord(_, _) => []
    case InnerRecord(_, _, left, right) => [left, right]
  }

  /** `flatten` of node `k`: a full binary record with one leaf record per
      leaf of the subtree, so `2n - 1` records for `n` leaves. */
  function Flatten(a: Arena, k: nat): (r: Record)
    requires WellFormed(a) && k < |a| && Full(a, k)
    ensures |LeafNames(r)| == |LeafColours(r)| == |Leaves(a, k)|
    ensures Size(r) == 2 * |Leaves(a, k)| - 1
    decreases |a| - k
  {
    if IsLeaf(a[k]) then LeafRecord(a[k].lbl, a[k].color)
    else InnerRecord(NatToString(a[k].key), a[k].color,
                     Flatten(a, a[k].left.value), Flatten(a, a[k].right.value))
  }

  /** Names of the leaf records, left to right. */
  function LeafNames(r: Record): seq<string> {
    match r
    case LeafRecord(name, _) => [name]
    case InnerRecord(_, _, left, right) => LeafNames(left) + LeafNames(right)
  }

  /** Number of records in the nested structure. */
  function Size(r: Record): nat {
    match r
    case LeafRecord(_, _) => 1
    case InnerRecord(_, _, left, right) => 1 + Size(left) + Size(right)
  }

  /** The labels of the nodes listed in `xs`, in order. */
  function Labels(a: Arena, xs: seq<nat>): (r: seq<string>)
    requires forall i :: 0 <= i < |xs| ==> xs[i] < |a|
    ensures |r| == |xs|
    ensures forall i :: 0 <= i < |xs| ==> r[i] == a[xs[i]].lbl
  {
    if xs == [] then [] else [a[xs[0]].lbl] + Labels(a, xs[1..])
  }

  lemma LabelsConcat(a: Arena, xs: seq<nat>, ys: seq<nat>)
    requires forall i :: 0 <= i < |xs| ==> xs[i] < |a|
    requires forall i :: 0 <= i < |ys| ==> ys[i] < |a|
    ensures Labels(a, xs + ys) == Labels(a, xs) + Labels(a, ys)
  {
  }

  /** A record is a leaf record exactly when its node is a leaf; it then has
      no children, and otherwise exactly two. */
  lemma FlattenShape(a: Arena, k: nat)
    requires WellFormed(a) && k < |a| && Full(a, k)
    ensures Flatten(a, k).LeafRecord? <==> IsLeaf(a[k])
    ensures |Children(Flatten(a, k))| == if IsLeaf(a[k]) then 0 else 2
    ensures Flatten(a, k).color == a[k].color
    ensures Flatten(a, k).name == if IsLeaf(a[k]) then a[k].lbl else NatToString(k)
  {
  }

  /** The leaf records carry the labels of the leaves, in leftmost-first order:
      flattening keeps every leaf label and discards no leaf. */
  lemma {:induction false} FlattenLeafNames(a: Arena, k: nat)
    requires WellFormed(a) && k < |a| && Full(a, k)
    ensures LeafNames(Flatten(a, k)) == Labels(a, Leaves(a, k))
    decreases |a| - k
  {
    if !IsLeaf(a[k]) {
      var l, r := a[k].left.value, a[k].right.value;
      FlattenLeafNames(a, l);
      FlattenLeafNames(a, r);
      LabelsConcat(a, Leaves(a, l), Leaves(a, r));
    }
  }

  /** Flattening produces one record per node of the subtree. */
  lemma {:induction false} FlattenSize(a: Arena, k: nat)
    requires WellFormed(a) && k < |a| && Full(a, k)
    ensures Size(Flatten(a, k)) == |SubtreeNodeSet(a, k)|
    decreases |a| - k
  {
    if !IsLeaf(a[k]) {
      var l, r := a[k].left.value, a[k].right.value;
      FlattenSize(a, l);
      FlattenSize(a, r);
      SubtreesDisjoint(a, k);
      var sl, sr := SubtreeNodeSet(a, l), SubtreeNodeSet(a, r);
      assert k !in sl + sr;
      assert |sl + sr| == |sl| + |sr|;
    }
  }

  /** Colours of the leaf records, left to right. */
  function LeafColours(r: Record): seq<Colour> {
    match r
    case LeafRecord(_, color) => [color]
    case InnerRecord(_, _, left, right) => LeafColours(left) + LeafColours(right)
  }

  /** The colours of the nodes listed in `xs`, in order. */
  function Colours(a: Arena, xs: seq<nat>): (r: seq<Colour>)
    requires forall i :: 0 <= i < |xs| ==> xs[i] < |a|
    ensures |r| == |xs|
    ensures forall i :: 0 <= i < |xs| ==> r[i] == a[xs[i]].color
  {
    if xs == [] then [] else [a[xs[0]].color] + Colours(a, xs[1..])
  }

  lemma ColoursConcat(a: Arena, xs: seq<nat>, ys: seq<nat>)
    requires forall i :: 0 <= i < |xs| ==> xs[i] < |a|
    requires forall i :: 0 <= i < |ys| ==> ys[i] < |a|
    ensures Colours(a, xs + ys) == Colours(a, xs) + Colours(a, ys)
  {
  }

  /** The leaf records carry the colours of the leaves, leftmost first. */
  lemma {:induction false} FlattenLeafColours(a: Arena, k: nat)
    requires WellFormed(a) && k < |a| && Full(a, k)
    ensures LeafColours(Flatten(a, k)) == Colours(a, Leaves(a, k))
    decreases |a| - k
  {
    if !IsLeaf(a[k]) {
      var l, r := a[k].left.value, a[k].right.value;
      FlattenLeafColours(a, l);
      FlattenLeafColours(a, r);
      ColoursConcat(a, Leaves(a, l), Leaves(a, r));
    }
  }

  /** Every internal record has colour `c`. */
  predicate InnerColours(r: Record, c: Colour) {
    match r
    case LeafRecord(_, _) => true
    case InnerRecord(_, color, left, right) =>
      color == c && InnerColours(left, c) && InnerColours(right, c)
  }

  /** An internal record takes the colour of its internal node, so when every
      internal node of the subtree has colour `c` so does every internal record. */
  lemma {:induction false} FlattenInnerColours(a: Arena, k: nat, c: Colour)
    requires WellFormed(a) && k < |a| && Full(a, k)
    requires forall x :: x in SubtreeNodeSet(a, k) && !IsLeaf(a[x]) ==> a[x].color == c
    ensures InnerColours(Flatten(a, k), c)
    decreases |a| - k
  {
    if !IsLeaf(a[k]) {
      var l, r := a[k].left.value, a[k].right.value;
      FlattenInnerColours(a, l, c);
      FlattenInnerColours(a, r, c);
    }
  }
}

=== FILE: forest.dfy ===
/** The `Node` class of forest.py as an arena: a tree is a sequence of node
    records whose index is the node's key, and links between nodes are
    optional indices into that sequence. The root is the node at index 0. */
module Forest {
  import opened Wrappers
  import opened Text

  /** A node colour: the hex string a node starts with, or the exact fraction
      `num / den` the colouring step assigns to a leaf. */
  datatype Colour = Hex(code: string) | Ratio(num: nat, den: nat)

  /** The colour every node is created with. */
  const DefaultColour: Colour := Hex("#555")

  datatype Node = Node(
    key: nat,
    lbl: string,          // the node's label
    color: Colour,
    parent: Option<nat>,
    left: Option<nat>,
    right: Option<nat>)

  type Arena = seq<Node>

  /** `Node(key)`: no links, label `str(key)`, the default colour. */
  function NewNode(key: nat): (n: Node)
    ensures n.key == key && n.parent.None? && IsLeaf(n) && n.color == DefaultColour
    ensures |n.lbl| > 0 && (n.lbl[0] == '0' ==> key == 0 && n.lbl == "0")
    ensures forall i :: 0 <= i < |n.lbl| ==> IsDigit(n.lbl[i])
    ensures StringToNat(n.lbl) == key
  {
    NatToStringRoundTrip(key);
    Node(key, NatToString(key), DefaultColour, None, None, None)
  }

  predicate IsLeaf(n: Node) {
    n.left.None? && n.right.None?
  }

  /** The shape every tree built by the parser keeps: keys are indices, the
      root (index 0) alone has no parent, every parent was created before its
      child, a child slot points to a later node whose parent is this node,
      a parent's left slot is filled, and the right slot is filled only after
      the left one. */
  predicate WellFormed(a: Arena) {
    && |a| > 0
    && a[0].parent.None?
    && (forall k :: 0 <= k < |a| ==> a[k].key == k)
    && (forall k {:trigger a[k].parent} :: 0 < k < |a| ==>
          a[k].parent.Some? && a[k].parent.value < k && a[a[k].parent.value].left.Some?)
    && (forall k {:trigger a[k].left} :: 0 <= k < |a| && a[k].left.Some? ==>
          k < a[k].left.value < |a| && a[a[k].left.value].parent == Some(k))
    && (forall k {:trigger a[k].right} :: 0 <= k < |a| && a[k].right.Some? ==>
          && a[k].left.Some?
          && a[k].left.value < a[k].right.value < |a|
          && a[a[k].right.value].parent == Some(k))
  }

  /** `is_leaf`: in a well-formed arena a node is a leaf exactly when no
      node names it as its parent, that is, when it was never given a child. */
  lemma IsLeafIffNoChildren(a: Arena, k: nat)
    requires WellFormed(a) && k < |a|
    ensures IsLeaf(a[k]) <==> forall j :: 0 <= j < |a| ==> a[j].parent != Some(k)
  {
    if !IsLeaf(a[k]) {
      assert a[a[k].left.value].parent == Some(k);
    }
  }

  /** `p.add_child(c)`: fill the left slot if it is empty, the right one
      otherwise (overwriting it), and make `p` the parent of `c`. */
  function AddChild(a: Arena, p: nat, c: nat): (r: Arena)
    requires p < |a| && c < |a| && p != c
    ensures |r| == |a|
    ensures a[p].left.None? ==> r[p] == a[p].(left := Some(c))
    ensures a[p].left.Some? ==> r[p] == a[p].(right := Some(c))
    ensures r[c] == a[c].(parent := Some(p))
    ensures forall k :: 0 <= k < |a| && k != p && k != c ==> r[k] == a[k]
  {
    var n := a[p];
    var a' := if n.left.None? then a[p := n.(left := Some(c))] else a[p := n.(right := Some(c))];
    a'[c := a'[c].(parent := Some(p))]
  }

  /** Attaching a freshly created, unlinked node (appended at the end of the
      arena) to an existing node keeps the arena well formed. */
  lemma AttachFreshKeepsWellFormed(b: Arena, p: nat, lbl: string)
    requires WellFormed(b) && p < |b|
    ensures WellFormed(AddChild(b + [NewNode(|b|).(lbl := lbl)], p, |b|))
  {
    var r := AddChild(b + [NewNode(|b|).(lbl := lbl)], p, |b|);
    AttachFreshKeys(b, p, lbl, r);
    AttachFreshLeft(b, p, lbl, r);
    AttachFreshRight(b, p, lbl, r);
  }

  lemma AttachFreshKeys(b: Arena, p: nat, lbl: string, r: Arena)
    requires WellFormed(b) && p < |b|
    requires r == AddChild(b + [NewNode(|b|).(lbl := lbl)], p, |b|)
    ensures |r| == |b| + 1 && r[0].parent.None?
    ensures forall k :: 0 <= k < |r| ==> r[k].key == k
    ensures forall k :: 0 < k < |r| ==> r[k].parent.Some? && r[k].parent.value < k
    ensures forall k :: 0 < k < |r| ==> r[r[k].parent.value].left.Some?
  {
    forall k | 0 <= k < |r|
      ensures r[k].key == k
      ensures 0 < k ==> r[k].parent.Some? && r[k].parent.value < k
      ensures 0 < k ==> r[r[k].parent.value].left.Some?
    {
      if k < |b| {
        assert r[k].key == b[k].key && r[k].parent == b[k].parent;
        if 0 < k {
          var q := b[k].parent.value;
          assert r[q].left.Some? by {
            if q != p {
              assert r[q] == b[q];
            }
          }
        }
      }
    }
  }

  lemma AttachFreshLeft(b: Arena, p: nat, lbl: string, r: Arena)
    requires WellFormed(b) && p < |b|
    requires r == AddChild(b + [NewNode(|b|).(lbl := lbl)], p, |b|)
    ensures forall k :: 0 <= k < |r| && r[k].left.Some? ==>
          k < r[k].left.value < |r| && r[r[k].left.value].parent == Some(k)
  {
    forall k | 0 <= k < |r| && r[k].left.Some?
      ensures k < r[k].left.value < |r| && r[r[k].left.value].parent == Some(k)
    {
      if k != p && k < |b| {
        var x := b[k].left.value;
        assert r[k] == b[k] && r[x].parent == b[x].parent;
      } else if k == p && b[p].left.Some? {
        var x := b[p].left.value;
        assert r[k].left == b[k].left && r[x].parent == b[x].parent;
      }
    }
  }

  lemma AttachFreshRight(b: Arena, p: nat, lbl: string, r: Arena)
    requires WellFormed(b) && p < |b|
    requires r == AddChild(b + [NewNode(|b|).(lbl := lbl)], p, |b|)
    ensures forall k :: 0 <= k < |r| && r[k].right.Some? ==>
          && r[k].left.Some?
          && r[k].left.value < r[k].right.value < |r|
          && r[r[k].right.value].parent == Some(k)
  {
    forall k | 0 <= k < |r| && r[k].right.Some?
      ensures r[k].left.Some? && r[k].left.value < r[k].right.value < |r|
      ensures r[r[k].right.value].parent == Some(k)
    {
      if k != p && k < |b| {
        var x := b[k].right.value;
        assert r[k] == b[k] && r[x].parent == b[x].parent;
      }
    }
  }

  /** Well-formedness reads keys and links only, not labels or colours. */
  lemma SameLinksWellFormed(a: Arena, b: Arena)
    requires WellFormed(a) && |b| == |a|
    requires forall k :: 0 <= k < |a| ==>
               b[k].key == a[k].key && b[k].parent == a[k].parent
               && b[k].left == a[k].left && b[k].right == a[k].right
    ensures WellFormed(b)
  {
    forall k | 0 < k < |b|
      ensures b[k].parent.Some? && b[k].parent.value < k && b[b[k].parent.value].left.Some?
    {
      assert a[k].parent == b[k].parent;
      assert a[a[k].parent.value].left.Some?;
    }
    forall k | 0 <= k < |b| && b[k].left.Some?
      ensures k < b[k].left.value < |b| && b[b[k].left.value].parent == Some(k)
    {
      assert a[k].left == b[k].left;
      assert a[a[k].left.value].parent == Some(k);
    }
    forall k | 0 <= k < |b| && b[k].right.Some?
      ensures b[k].left.Some? && b[k].left.value < b[k].right.value < |b|
      ensures b[b[k].right.value].parent == Some(k)
    {
      assert a[k].right == b[k].right && a[k].left == b[k].left;
      assert a[a[k].right.value].parent == Some(k);
    }
  }

  /** Number of parent links from node `k` up to the root. */
  function Depth(a: Arena, k: nat): nat
    requires WellFormed(a) && k < |a|
    decreases k
  {
    match a[k].parent
    case None => 0
    case Some(p) => 1 + Depth(a, p)
  }

  /** Only the root is at depth 0. */
  lemma {:induction false} DepthZeroIsRoot(a: Arena, k: nat)
    requires WellFormed(a) && k < |a|
    ensures Depth(a, k) == 0 <==> k == 0
  {
  }

  /** Depth reads parent links only, so arenas that agree on the parent
      links of their common nodes agree on depths. */
  lemma {:induction false} DepthFrame(a: Arena, b: Arena, k: nat)
    requires WellFormed(a) && WellFormed(b) && k < |a| <= |b|
    requires forall i :: 0 <= i < |a| ==> b[i].parent == a[i].parent
    ensures Depth(a, k) == Depth(b, k)
    decreases k
  {
    if a[k].parent.Some? {
      DepthFrame(a, b, a[k].parent.value);
    }
  }

  /** The precondition of `leaf_set`, `subtree_node_set` and `flatten`: every
      node of the subtree is a leaf or has both children. */
  predicate Full(a: Arena, k: nat)
    requires WellFormed(a) && k < |a|
    decreases |a| - k
  {
    || IsLeaf(a[k])
    || (a[k].left.Some? && a[k].right.Some? && Full(a, a[k].left.value) && Full(a, a[k].right.value))
  }

  /** `leaf_set`: the leaves of the subtree rooted at `k`. */
  function LeafSet(a: Arena, k: nat): (r: set<nat>)
    requires WellFormed(a) && k < |a| && Full(a, k)
    ensures r != {}
    ensures forall x :: x in r ==> k <= x < |a| && IsLeaf(a[x])
    decreases |a| - k
  {
    if IsLeaf(a[k]) then {k}
    else LeafSet(a, a[k].left.value) + LeafSet(a, a[k].right.value)
  }

  /** `subtree_node_set`: every node of the subtree rooted at `k`, `k` included. */
  function SubtreeNodeSet(a: Arena, k: nat): (r: set<nat>)
    requires WellFormed(a) && k < |a| && Full(a, k)
    ensures k in r
    ensures forall x :: x in r ==> k <= x < |a|
    decreases |a| - k
  {
    if IsLeaf(a[k]) then {k}
    else SubtreeNodeSet(a, a[k].left.value) + SubtreeNodeSet(a, a[k].right.value) + {k}
  }

  /** The leaves of the subtree rooted at `k`, leftmost first: a deterministic
      enumeration of `LeafSet`. */
  function Leaves(a: Arena, k: nat): (r: seq<nat>)
    requires WellFormed(a) && k < |a| && Full(a, k)
    ensures |r| > 0
    ensures forall i :: 0 <= i < |r| ==> k <= r[i] < |a| && IsLeaf(a[r[i]])
    decreases |a| - k
  {
    if IsLeaf(a[k]) then [k]
    else Leaves(a, a[k].left.value) + Leaves(a, a[k].right.value)
  }

  /** `x` lies in the subtree of `k`: walking up from `x` through parent
      links, each of which is a live child slot of the parent, reaches `k`. */
  predicate Reaches(a: Arena, k: nat, x: nat)
    requires WellFormed(a) && x < |a|
    decreases x
  {
    || x == k
    || (&& a[x].parent.Some?
        && var p := a[x].parent.value;
        && (a[p].left == Some(x) || a[p].right == Some(x))
        && Reaches(a, k, p))
  }

  predicate ChildOf(a: Arena, c: nat, k: nat)
    requires k < |a|
  {
    a[k].left == Some(c) || a[k].right == Some(c)
  }

  lemma {:induction false} ReachesBelow(a: Arena, k: nat, x: nat)
    requires WellFormed(a) && x < |a|
    requires Reaches(a, k, x)
    ensures k <= x
    decreases x
  {
    if x != k {
      ReachesBelow(a, k, a[x].parent.value);
    }
  }

  /** A node reached from a child of `k` is reached from `k`. */
  lemma {:induction false} ReachesThroughChild(a: Arena, k: nat, c: nat, x: nat)
    requires WellFormed(a) && k < |a| && x < |a|
    requires ChildOf(a, c, k) && Reaches(a, c, x)
    ensures Reaches(a, k, x)
    decreases x
  {
    if x != c {
      ReachesThroughChild(a, k, c, a[x].parent.value);
    }
  }

  /** Two nodes above a common node lie on one upward path. */
  lemma {:induction false} ReachesComparable(a: Arena, u: nat, v: nat, x: nat)
    requires WellFormed(a) && x < |a|
    requires Reaches(a, u, x) && Reaches(a, v, x)
    ensures u < |a| && v < |a|
    ensures Reaches(a, u, v) || Reaches(a, v, u)
    decreases x
  {
    ReachesBelow(a, u, x);
    ReachesBelow(a, v, x);
    if x != u && x != v {
      ReachesComparable(a, u, v, a[x].parent.value);
    }
  }

  /** Inside a full subtree, every node's own subtree is full and contained. */
  lemma {:induction false} SubtreeClosed(a: Arena, k: nat, p: nat)
    requires WellFormed(a) && k < |a| && Full(a, k)
    requires p in SubtreeNodeSet(a, k)
    ensures p < |a| && Full(a, p) && SubtreeNodeSet(a, p) <= SubtreeNodeSet(a, k)
    decreases |a| - k
  {
    if p != k {
      var l, r := a[k].left.value, a[k].right.value;
      if p in SubtreeNodeSet(a, l) {
        SubtreeClosed(a, l, p);
      } else {
        SubtreeClosed(a, r, p);
      }
    }
  }

  /** `subtree_node_set(k)` holds exactly the nodes that reach `k` upwards. */
  lemma SubtreeNodeSetIsReachable(a: Arena, k: nat, x: nat)
    requires WellFormed(a) && k < |a| && Full(a, k) && x < |a|
    ensures x in SubtreeNodeSet(a, k) <==> Reaches(a, k, x)
  {
    if x in SubtreeNodeSet(a, k) {
      SubtreeReaches(a, k, x);
    }
    if Reaches(a, k, x) {
      ReachedInSubtree(a, k, x);
    }
  }

  lemma {:induction false} SubtreeReaches(a: Arena, k: nat, x: nat)
    requires WellFormed(a) && k < |a| && Full(a, k)
    requires x in SubtreeNodeSet(a, k)
    ensures Reaches(a, k, x)
    decreases |a| - k
  {
    if x != k {
      var l, r := a[k].left.value, a[k].right.value;
      if x in SubtreeNodeSet(a, l) {
        SubtreeReaches(a, l, x);
        ReachesThroughChild(a, k, l, x);
      } else {
        SubtreeReaches(a, r, x);
        ReachesThroughChild(a, k, r, x);
      }
    }
  }

  lemma {:induction false} ReachedInSubtree(a: Arena, k: nat, x: nat)
    requires WellFormed(a) && k < |a| && Full(a, k) && x < |a|
    requires Reaches(a, k, x)
    ensures x in SubtreeNodeSet(a, k)
    decreases x
  {
    if x != k {
      var p := a[x].parent.value;
      ReachedInSubtree(a, k, p);
      SubtreeClosed(a, k, p);
      assert !IsLeaf(a[p]);
      assert x in SubtreeNodeSet(a, p);
    }
  }

  /** The two subtrees below an internal node share no node. */
  lemma SubtreesDisjoint(a: Arena, k: nat)
    requires WellFormed(a) && k < |a| && Full(a, k) && !IsLeaf(a[k])
    ensures SubtreeNodeSet(a, a[k].left.value) !! SubtreeNodeSet(a, a[k].right.value)
  {
    var l, r := a[k].left.value, a[k].right.value;
    if x :| x in SubtreeNodeSet(a, l) && x in SubtreeNodeSet(a, r) {
      SubtreeReaches(a, l, x);
      SubtreeReaches(a, r, x);
      ReachesComparable(a, l, r, x);
      if Reaches(a, l, r) {
        ReachesBelow(a, l, k);
      } else {
        ReachesBelow(a, r, k);
      }
    }
  }

  /** `leaf_set(k)` is exactly the childless nodes of `subtree_node_set(k)`. */
  lemma {:induction false} LeafSetIsChildlessNodes(a: Arena, k: nat)
    requires WellFormed(a) && k < |a| && Full(a, k)
    ensures LeafSet(a, k) == set x | x in SubtreeNodeSet(a, k) && IsLeaf(a[x])
    decreases |a| - k
  {
    if !IsLeaf(a[k]) {
      LeafSetIsChildlessNodes(a, a[k].left.value);
      LeafSetIsChildlessNodes(a, a[k].right.value);
    }
  }

  lemma LeafSetInSubtree(a: Arena, k: nat)
    requires WellFormed(a) && k < |a| && Full(a, k)
    ensures LeafSet(a, k) <= SubtreeNodeSet(a, k)
  {
    LeafSetIsChildlessNodes(a, k);
  }

  /** The leftmost-first enumeration lists exactly the leaf set. */
  lemma {:induction false} LeavesEnumerateLeafSet(a: Arena, k: nat)
    requires WellFormed(a) && k < |a| && Full(a, k)
    ensures forall x :: x in Leaves(a, k) <==> x in LeafSet(a, k)
    decreases |a| - k
  {
    if !IsLeaf(a[k]) {
      LeavesEnumerateLeafSet(a, a[k].left.value);
      LeavesEnumerateLeafSet(a, a[k].right.value);
    }
  }

  predicate Distinct(s: seq<nat>) {
    forall i, j :: 0 <= i < j < |s| ==> s[i] != s[j]
  }

  lemma DistinctConcat(s: seq<nat>, t: seq<nat>)
    requires Distinct(s) && Distinct(t)
    requires forall i, j :: 0 <= i < |s| && 0 <= j < |t| ==> s[i] != t[j]
    ensures Distinct(s + t)
  {
    forall i, j | 0 <= i < j < |s + t|
      ensures (s + t)[i] != (s + t)[j]
    {
      if j < |s| {
        assert (s + t)[i] == s[i] && (s + t)[j] == s[j];
      } else if |s| <= i {
        assert (s + t)[i] == t[i - |s|] && (s + t)[j] == t[j - |s|];
      } else {
        assert (s + t)[i] == s[i] && (s + t)[j] == t[j - |s|];
      }
    }
  }

  /** The enumeration lists no leaf twice, as a set would not. */
  lemma {:induction false} LeavesDistinct(a: Arena, k: nat)
    requires WellFormed(a) && k < |a| && Full(a, k)
    ensures Distinct(Leaves(a, k))
    decreases |a| - k
  {
    if !IsLeaf(a[k]) {
      var l, r := a[k].left.value, a[k].right.value;
      LeavesDistinct(a, l);
      LeavesDistinct(a, r);
      LeavesEnumerateLeafSet(a, l);
      LeavesEnumerateLeafSet(a, r);
      LeafSetInSubtree(a, l);
      LeafSetInSubtree(a, r);
      SubtreesDisjoint(a, k);
      var s, t := Leaves(a, l), Leaves(a, r);
      assert forall i, j :: 0 <= i < |s| && 0 <= j < |t| ==> s[i] != t[j] by {
        forall i, j | 0 <= i < |s| && 0 <= j < |t|
          ensures s[i] != t[j]
        {
          assert s[i] in SubtreeNodeSet(a, l);
          assert t[j] in SubtreeNodeSet(a, r);
        }
      }
      DistinctConcat(s, t);
    }
  }

  /** `b` is `a` with at most the colours changed. */
  predicate OnlyColoursDiffer(a: Arena, b: Arena) {
    |a| == |b| && forall k :: 0 <= k < |a| ==> b[k] == a[k].(color := b[k].color)
  }

  /** Recolouring keeps the tree: the same well-formedness, the same
      completeness, and the same leaves in the same order. */
  lemma {:induction false} RecolourKeepsShape(a: Arena, b: Arena, k: nat)
    requires WellFormed(a) && OnlyColoursDiffer(a, b) && k < |a|
    ensures WellFormed(b)
    ensures Full(b, k) <==> Full(a, k)
    ensures Full(a, k) ==> LeafSet(b, k) == LeafSet(a, k) && Leaves(b, k) == Leaves(a, k)
    decreases |a| - k
  {
    SameLinksWellFormed(a, b);
    assert b[k].left == a[k].left && b[k].right == a[k].right;
    if !IsLeaf(a[k]) {
      if a[k].left.Some? {
        RecolourKeepsShape(a, b, a[k].left.value);
      }
      if a[k].right.Some? {
        RecolourKeepsShape(a, b, a[k].right.value);
      }
    }
  }
}

=== FILE: newick.dfy ===
/** `from_newick`: one left-to-right scan over the text that builds the node
    arena. The scanner state is the counter `key`, the `cursor`, the bracket
    depth `brackets` and the `current` node. */
module Newick {
  import opened Wrappers
  import opened Text
  import opened Forest

  const OpenBracket: char := '('
  const ClosedBracket: char := ')'
  const ChildSeparator: char := ','
  const Terminator: char := ';'

  /** Why a parse gives no tree. */
  datatype ParseError =
    | EmptyInput           // `newick[-1]` on the empty string
    | MalformedBracketing  // a `)` takes the depth below zero; the parse returns None
    | TooManyChildren      // a `,` whose parent already has a right child: the failed assert
    | OrphanSibling        // a `,` while the current node is the root: `None.right_child`

  datatype Parser = Parser(nodes: Arena, key: nat, cursor: nat, brackets: int, current: nat)

  /** A label is the default one (`prefix` followed by the key) or a stripped
      piece of the text. */
  predicate LabelFromText(text: string, prefix: string, key: nat, lbl: string) {
    || lbl == prefix + NatToString(key)
    || exists i, j :: 0 <= i <= j <= |text| && lbl == Strip(text[i..j])
  }

  /** What the scan keeps true between two tokens. */
  predicate Valid(text: string, prefix: string, st: Parser) {
    && WellFormed(st.nodes)
    && st.key == |st.nodes|
    && st.cursor <= |text|
    && st.current < |st.nodes|
    && st.brackets == Depth(st.nodes, st.current)
    && (forall k :: 0 <= k < |st.nodes| ==> st.nodes[k].color == DefaultColour)
    && (forall k :: 0 <= k < |st.nodes| ==> LabelFromText(text, prefix, k, st.nodes[k].lbl))
  }

  /** The state before the first token: only the root, key 0, labelled `prefix + "0"`. */
  function Start(text: string, prefix: string): (st: Parser)
    ensures Valid(text, prefix, st)
    ensures |st.nodes| == 1 && st.current == 0 && st.cursor == 0 && st.brackets == 0
    ensures st.nodes[0].key == 0 && st.nodes[0].lbl == prefix + "0" && IsLeaf(st.nodes[0])
  {
    Parser([NewNode(0).(lbl := prefix + NatToString(0))], 1, 0, 0, 0)
  }

  /** The node made by a `(` or a `,`: the next key, the default label. */
  function Fresh(prefix: string, key: nat): Node {
    NewNode(key).(lbl := prefix + NatToString(key))
  }

  /** Attaching the next fresh node below node `p` keeps every part of the
      scan invariant except the cursor and the current node, and puts the new
      node one level below `p`. */
  lemma AttachKeepsInvariant(text: string, prefix: string, st: Parser, p: nat)
    requires Valid(text, prefix, st) && p < |st.nodes|
    ensures var nodes := AddChild(st.nodes + [Fresh(prefix, st.key)], p, st.key);
            && WellFormed(nodes)
            && Depth(nodes, st.key) == 1 + Depth(st.nodes, p)
            && (forall k :: 0 <= k < |st.nodes| ==> Depth(nodes, k) == Depth(st.nodes, k))
            && (forall k :: 0 <= k < |nodes| ==> nodes[k].color == DefaultColour)
            && (forall k :: 0 <= k < |nodes| ==> LabelFromText(text, prefix, k, nodes[k].lbl))
  {
    var c := st.key;
    var nodes := AddChild(st.nodes + [Fresh(prefix, c)], p, c);
    AttachFreshKeepsWellFormed(st.nodes, p, prefix + NatToString(c));
    forall k | 0 <= k < |st.nodes|
      ensures Depth(nodes, k) == Depth(st.nodes, k)
    {
      DepthFrame(st.nodes, nodes, k);
    }
    assert nodes[c].parent == Some(p);
    forall k | 0 <= k < |nodes|
      ensures nodes[k].color == DefaultColour
      ensures LabelFromText(text, prefix, k, nodes[k].lbl)
    {
      if k < c {
        assert nodes[k].lbl == st.nodes[k].lbl && nodes[k].color == st.nodes[k].color;
      }
    }
  }

  /** `(`: a new node becomes a child of the current node and the current node. */
  function Open(text: string, prefix: string, st: Parser): (r: Parser)
    requires Valid(text, prefix, st) && st.cursor < |text|
    ensures Valid(text, prefix, r)
    ensures |r.nodes| == |st.nodes| + 1 && r.current == st.key && r.key == st.key + 1
    ensures r.nodes[r.current].parent == Some(st.current) && IsLeaf(r.nodes[r.current])
    ensures r.nodes[r.current].lbl == prefix + NatToString(st.key)
    ensures st.nodes[st.current].left.None? ==>
              r.nodes[st.current] == st.nodes[st.current].(left := Some(st.key))
    ensures st.nodes[st.current].left.Some? ==>
              r.nodes[st.current] == st.nodes[st.current].(right := Some(st.key))
    ensures r.brackets == st.brackets + 1 && r.cursor == st.cursor + 1
    ensures forall k :: 0 <= k < |st.nodes| && k != st.current ==> r.nodes[k] == st.nodes[k]
  {
    var c := st.key;
    var nodes := AddChild(st.nodes + [Fresh(prefix, c)], st.current, c);
    AttachKeepsInvariant(text, prefix, st, st.current);
    Parser(nodes, st.key + 1, st.cursor + 1, st.brackets + 1, c)
  }

  /** `,`: a new node becomes a child of the current node's parent and the
      current node; it fails at the root and when that parent is full. */
  function Separate(text: string, prefix: string, st: Parser): (r: Result<Parser, ParseError>)
    requires Valid(text, prefix, st) && st.cursor < |text|
    ensures r == Failure(OrphanSibling) <==> st.nodes[st.current].parent.None?
    ensures r == Failure(TooManyChildren) <==>
              st.nodes[st.current].parent.Some? && st.nodes[st.nodes[st.current].parent.value].right.Some?
    ensures r.Failure? ==> r.error == OrphanSibling || r.error == TooManyChildren
    ensures r.Success? ==>
              var p := st.nodes[st.current].parent.value;
              && Valid(text, prefix, r.value)
              && |r.value.nodes| == |st.nodes| + 1 && r.value.current == st.key && r.value.key == st.key + 1
              && r.value.nodes[p] == st.nodes[p].(right := Some(r.value.current))
              && r.value.nodes[r.value.current].parent == Some(p) && IsLeaf(r.value.nodes[r.value.current])
              && r.value.nodes[r.value.current].lbl == prefix + NatToString(st.key)
              && r.value.brackets == st.brackets && r.value.cursor == st.cursor + 1
              && (forall k :: 0 <= k < |st.nodes| && k != p ==> r.value.nodes[k] == st.nodes[k])
  {
    match st.nodes[st.current].parent
    case None => Failure(OrphanSibling)
    case Some(p) =>
      if st.nodes[p].right.Some? then Failure(TooManyChildren)
      else
        var c := st.key;
        var nodes := AddChild(st.nodes + [Fresh(prefix, c)], p, c);
        AttachKeepsInvariant(text, prefix, st, p);
        Success(Parser(nodes, st.key + 1, st.cursor + 1, st.brackets, c))
  }

  /** `)`: the parent becomes the current node; at depth 0 the whole parse fails. */
  function Close(text: string, prefix: string, st: Parser): (r: Result<Parser, ParseError>)
    requires Valid(text, prefix, st) && st.cursor < |text|
    ensures r.Failure? <==> st.current == 0
    ensures r.Failure? ==> r.error == MalformedBracketing
    ensures r.Success? ==>
              && Valid(text, prefix, r.value)
              && Some(r.value.current) == st.nodes[st.current].parent
              && r.value.nodes == st.nodes && r.value.key == st.key
              && r.value.brackets == st.brackets - 1 && r.value.cursor == st.cursor + 1
  {
    DepthZeroIsRoot(st.nodes, st.current);
    var brackets := st.brackets - 1;
    if brackets < 0 then Failure(MalformedBracketing)
    else Success(st.(current := st.nodes[st.current].parent.value, cursor := st.cursor + 1,
                     brackets := brackets))
  }

  predicate EndsRun(c: char) {
    c == ChildSeparator || c == ClosedBracket
  }

  /** The first position at or after `i` that holds `,` or `)`, or the end. */
  function RunEnd(text: string, i: nat): (j: nat)
    requires i <= |text|
    ensures i <= j <= |text|
    ensures forall k :: i <= k < j ==> !EndsRun(text[k])
    ensures j < |text| ==> EndsRun(text[j])
    decreases |text| - i
  {
    if i == |text| || EndsRun(text[i]) then i else RunEnd(text, i + 1)
  }

  /** Giving the current node a label cut from the text keeps the scan
      invariant apart from the cursor. */
  lemma RelabelKeepsInvariant(text: string, prefix: string, st: Parser, j: nat)
    requires Valid(text, prefix, st) && st.cursor <= j <= |text|
    ensures var nodes := st.nodes[st.current := st.nodes[st.current].(lbl := Strip(text[st.cursor..j]))];
            && WellFormed(nodes)
            && Depth(nodes, st.current) == Depth(st.nodes, st.current)
            && (forall k :: 0 <= k < |nodes| ==> nodes[k].color == DefaultColour)
            && (forall k :: 0 <= k < |nodes| ==> LabelFromText(text, prefix, k, nodes[k].lbl))
  {
    var a := st.nodes;
    var nodes := a[st.current := a[st.current].(lbl := Strip(text[st.cursor..j]))];
    assert forall k :: 0 <= k < |a| ==>
      nodes[k].key == a[k].key && nodes[k].parent == a[k].parent
      && nodes[k].left == a[k].left && nodes[k].right == a[k].right && nodes[k].color == a[k].color;
    SameLinksWellFormed(a, nodes);
    DepthFrame(a, nodes, st.current);
    forall k | 0 <= k < |nodes|
      ensures LabelFromText(text, prefix, k, nodes[k].lbl)
    {
      if k == st.current {
        assert nodes[k].lbl == Strip(text[st.cursor..j]);
      } else {
        assert nodes[k].lbl == a[k].lbl;
      }
    }
  }

  /** Any other character: it and everything up to the next `,` or `)` is the
      current node's label, stripped. Nothing else changes. */
  function LabelRun(text: string, prefix: string, st: Parser): (r: Parser)
    requires Valid(text, prefix, st) && st.cursor < |text|
    ensures Valid(text, prefix, r)
    ensures st.cursor < r.cursor <= |text|
    ensures forall k :: st.cursor < k < r.cursor ==> !EndsRun(text[k])
    ensures r.cursor < |text| ==> EndsRun(text[r.cursor])
    ensures r.nodes == st.nodes[st.current := st.nodes[st.current].(lbl := Strip(text[st.cursor..r.cursor]))]
    ensures r.key == st.key && r.brackets == st.brackets && r.current == st.current
  {
    var j := RunEnd(text, st.cursor + 1);
    var nodes := st.nodes[st.current := st.nodes[st.current].(lbl := Strip(text[st.cursor..j]))];
    RelabelKeepsInvariant(text, prefix, st, j);
    st.(nodes := nodes, cursor := j)
  }

  /** One token: dispatch on the character under the cursor. */
  function Step(text: string, prefix: string, st: Parser): (r: Result<Parser, ParseError>)
    requires Valid(text, prefix, st) && st.cursor < |text|
    ensures r.Success? ==> Valid(text, prefix, r.value) && st.cursor < r.value.cursor
    ensures r.Failure? ==>
              || (text[st.cursor] == ClosedBracket && r.error == MalformedBracketing && st.current == 0)
              || (text[st.cursor] == ChildSeparator && (r.error == TooManyChildren || r.error == OrphanSibling))
  {
    var c := text[st.cursor];
    if c == OpenBracket then Success(Open(text, prefix, st))
    else if c == ChildSeparator then Separate(text, prefix, st)
    else if c == ClosedBracket then Close(text, prefix, st)
    else Success(LabelRun(text, prefix, st))
  }

  /** The scan loop from state `st` to the end of the text or the first error. */
  function Scan(text: string, prefix: string, st: Parser): (r: Result<Parser, ParseError>)
    requires Valid(text, prefix, st)
    ensures r.Success? ==> Valid(text, prefix, r.value) && r.value.cursor == |text|
    ensures r.Success? ==> |st.nodes| <= |r.value.nodes|
    ensures r.Failure? ==> r.error != EmptyInput
    ensures r.Failure? && r.error == MalformedBracketing ==>
              exists k :: st.cursor <= k < |text| && text[k] == ClosedBracket
    ensures r.Failure? && r.error != MalformedBracketing ==>
              exists k :: st.cursor <= k < |text| && text[k] == ChildSeparator
    decreases |text| - st.cursor
  {
    if st.cursor == |text| then Success(st)
    else
      match Step(text, prefix, st)
      case Failure(e) => Failure(e)
      case Success(next) => Scan(text, prefix, next)
  }

  /** One token of the scan, by token class. */
  lemma ScanOpen(t: string, p: string, st: Parser)
    requires Valid(t, p, st) && st.cursor < |t| && t[st.cursor] == OpenBracket
    ensures Scan(t, p, st) == Scan(t, p, Open(t, p, st))
  {
  }

  lemma ScanLabel(t: string, p: string, st: Parser)
    requires Valid(t, p, st) && st.cursor < |t|
    requires t[st.cursor] != OpenBracket && !EndsRun(t[st.cursor])
    ensures Scan(t, p, st) == Scan(t, p, LabelRun(t, p, st))
  {
  }

  lemma ScanSeparate(t: string, p: string, st: Parser)
    requires Valid(t, p, st) && st.cursor < |t| && t[st.cursor] == ChildSeparator
    ensures Separate(t, p, st).Success? ==> Scan(t, p, st) == Scan(t, p, Separate(t, p, st).value)
    ensures Separate(t, p, st).Failure? ==> Scan(t, p, st) == Failure(Separate(t, p, st).error)
  {
  }

  lemma ScanClose(t: string, p: string, st: Parser)
    requires Valid(t, p, st) && st.cursor < |t| && t[st.cursor] == ClosedBracket
    ensures Close(t, p, st).Success? ==> Scan(t, p, st) == Scan(t, p, Close(t, p, st).value)
    ensures Close(t, p, st).Failure? ==> Scan(t, p, st) == Failure(Close(t, p, st).error)
  {
  }

  /** The text the scan reads: the input without one trailing `;`. */
  function Body(newick: string): (text: string)
    requires |newick| > 0
    ensures newick[|newick| - 1] == Terminator ==> text + [Terminator] == newick
    ensures newick[|newick| - 1] != Terminator ==> text == newick
  {
    if newick[|newick| - 1] == Terminator then newick[..|newick| - 1] else newick
  }

  /** `from_newick(newick, prefix)`: the node arena whose index 0 is the root,
      or the reason there is none. */
  function FromNewick(newick: string, prefix: string): (r: Result<Arena, ParseError>)
    ensures r == Failure(EmptyInput) <==> |newick| == 0
    ensures r.Success? ==> WellFormed(r.value) && r.value[0].key == 0 && r.value[0].parent.None?
    ensures r.Success? ==> forall k :: 0 <= k < |r.value| ==> r.value[k].color == DefaultColour
    ensures r.Success? ==> forall k :: 0 <= k < |r.value| ==>
              LabelFromText(Body(newick), prefix, k, r.value[k].lbl)
    ensures r == Failure(MalformedBracketing) ==>
              exists k :: 0 <= k < |Body(newick)| && Body(newick)[k] == ClosedBracket
    ensures r == Failure(TooManyChildren) || r == Failure(OrphanSibling) ==>
              exists k :: 0 <= k < |Body(newick)| && Body(newick)[k] == ChildSeparator
  {
    if |newick| == 0 then Failure(EmptyInput)
    else
      var text := Body(newick);
      var st :- Scan(text, prefix, Start(text, prefix));
      Success(st.nodes)
  }

  /** Text without `,` and `)` (after dropping one `;`) always yields a
      tree, however many `(` are left unclosed. */
  lemma NoSeparatorsParses(newick: string, prefix: string)
    requires |newick| > 0
    requires forall k :: 0 <= k < |Body(newick)| ==> !EndsRun(Body(newick)[k])
    ensures FromNewick(newick, prefix).Success?
  {
  }

  /** The `while cursor < len(newick)` loop itself: the same dispatch, run
      as a loop over a mutable state. Its invariants are the scan invariant
      (well-formed arena, `brackets` equal to the depth of the current node)
      and that the rest of the scan yields the answer. */
  method ParseNewick(newick: string, prefix: string) returns (r: Result<Arena, ParseError>)
    ensures r == FromNewick(newick, prefix)
  {
    if |newick| == 0 {
      return Failure(EmptyInput);
    }
    var text := newick;
    if newick[|newick| - 1] == Terminator {
      text := newick[..|newick| - 1];
    }
    var st := Start(text, prefix);
    while st.cursor < |text|
      invariant Valid(text, prefix, st)
      invariant Scan(text, prefix, st) == Scan(text, prefix, Start(text, prefix))
      decreases |text| - st.cursor
    {
      var c := text[st.cursor];
      if c == OpenBracket {
        ScanOpen(text, prefix, st);
        st := Open(text, prefix, st);
      } else if c == ChildSeparator {
        ScanSeparate(text, prefix, st);
        var next := Separate(text, prefix, st);
        if next.Failure? {
          return Failure(next.error);
        }
        st := next.value;
      } else if c == ClosedBracket {
        ScanClose(text, prefix, st);
        var next := Close(text, prefix, st);
        if next.Failure? {
          return Failure(next.error);
        }
        st := next.value;
      } else {
        ScanLabel(text, prefix, st);
        st := LabelRun(text, prefix, st);
      }
    }
    return Success(st.nodes);
  }
}

=== FILE: text.dfy ===
/** The two pieces of Python string behaviour the tree code relies on:
    `str.strip()` with no argument, and `str(n)` of a non-negative integer. */
module Text {

  /** The characters Python's `str.strip()` removes: the code points for which
      `str.isspace()` holds. */
  predicate IsSpace(c: char) {
    || ('\U{9}' <= c <= '\U{D}')
    || ('\U{1C}' <= c <= '\U{20}')
    || c == '\U{85}' || c == '\U{A0}' || c == '\U{1680}'
    || ('\U{2000}' <= c <= '\U{200A}')
    || c == '\U{2028}' || c == '\U{2029}' || c == '\U{202F}' || c == '\U{205F}' || c == '\U{3000}'
  }

  /** Number of leading whitespace characters of `s`. */
  function StripStart(s: string): (i: nat)
    ensures i <= |s|
    ensures forall k :: 0 <= k < i ==> IsSpace(s[k])
    ensures i < |s| ==> !IsSpace(s[i])
  {
    if |s| == 0 || !IsSpace(s[0]) then 0 else 1 + StripStart(s[1..])
  }

  /** Length of `s` without its trailing whitespace. */
  function StripEnd(s: string): (j: nat)
    ensures j <= |s|
    ensures forall k :: j <= k < |s| ==> IsSpace(s[k])
    ensures 0 < j ==> !IsSpace(s[j - 1])
  {
    if |s| == 0 || !IsSpace(s[|s| - 1]) then |s| else StripEnd(s[..|s| - 1])
  }

  /** `s.strip()`: `s` without leading and trailing whitespace. */
  function Strip(s: string): (r: string)
    ensures |r| <= |s|
    ensures r == [] <==> forall k :: 0 <= k < |s| ==> IsSpace(s[k])
    ensures r != [] ==> !IsSpace(r[0]) && !IsSpace(r[|r| - 1])
    ensures StripStart(s) + |r| <= |s| && s[StripStart(s)..StripStart(s) + |r|] == r
    ensures forall k :: StripStart(s) + |r| <= k < |s| ==> IsSpace(s[k])
  {
    var i := StripStart(s);
    if i == |s| then
      []
    else
      var j := StripEnd(s);
      assert i < j;
      s[i..j]
  }

  /** Stripping twice is the same as stripping once. */
  lemma StripIdempotent(s: string)
    ensures Strip(Strip(s)) == Strip(s)
  {
    var r := Strip(s);
    if r != [] {
      assert StripStart(r) == 0;
      assert StripEnd(r) == |r|;
      assert r[0..|r|] == r;
    }
  }

  predicate IsDigit(c: char) {
    '0' <= c <= '9'
  }

  function DigitChar(d: nat): (c: char)
    requires d < 10
    ensures IsDigit(c)
  {
    "0123456789"[d]
  }

  function DigitValue(c: char): (d: nat)
    requires IsDigit(c)
    ensures d < 10
  {
    (c as int - '0' as int) as nat
  }

  /** `str(n)` for `n >= 0`: decimal digits, most significant first, no leading zero. */
  function NatToString(n: nat): (r: string)
    ensures |r| > 0
    ensures forall k :: 0 <= k < |r| ==> IsDigit(r[k])
    ensures r[0] == '0' ==> n == 0 && r == "0"
    decreases n
  {
    if n < 10 then [DigitChar(n)] else NatToString(n / 10) + [DigitChar(n % 10)]
  }

  /** Reads a string of decimal digits back as a number (the inverse of `NatToString`). */
  function StringToNat(s: string): nat
    requires forall k :: 0 <= k < |s| ==> IsDigit(s[k])
    decreases |s|
  {
    if |s| == 0 then 0 else 10 * StringToNat(s[..|s| - 1]) + DigitValue(s[|s| - 1])
  }

  lemma {:induction false} NatToStringRoundTrip(n: nat)
    ensures StringToNat(NatToString(n)) == n
    decreases n
  {
    var r := NatToString(n);
    if n < 10 {
      assert r[..|r| - 1] == [];
    } else {
      NatToStringRoundTrip(n / 10);
      assert r[..|r| - 1] == NatToString(n / 10);
    }
  }

  /** Distinct keys get distinct decimal names. */
  lemma NatToStringInjective(m: nat, n: nat)
    ensures NatToString(m) == NatToString(n) ==> m == n
  {
    NatToStringRoundTrip(m);
    NatToStringRoundTrip(n);
  }
}

=== FILE: wrappers.dfy ===
/** Option and Result datatypes: the model's stand-ins for Python's `None` and for raised exceptions. */
module Wrappers {

  /** A value that may be absent, as a Python attribute that may hold `None`. */
  datatype Option<+T> = None | Some(value: T)

  /** Either a value or the error that the Python code would have raised instead. */
  datatype Result<+R, +E> = Success(value: R) | Failure(error: E) {
    predicate IsFailure() {
      Failure?
    }

    function PropagateFailure<U>(): Result<U, E>
      requires Failure?
    {
      Failure(error)
    }

    function Extract(): R
      requires Success?
    {
      value
    }
  }
}
